=== FILE: README.md ===
# ak-roster depot sync, roster filter and skin table, in Dafny

The project models three pieces of the ak-roster web app:

- The **depot sync engine** of the `useDepot` hook. It keeps the user's material stock in local storage. It aggregates each batch of edits into two trackers: `rawUpdate` holds the pending changes and `ogValues` holds each dirty key's value before its first unsynced change. It pushes `rawUpdate` to the remote store through a 5-second debounced or an immediate upsert. It zeroes the whole depot on reset, and on mount it reloads the depot from the store while deleting rows whose material is no longer in the item table.
- The **roster filter** of the `useFilter` hook. It has ten categories of selected values, toggle/clear/initialise operations on them, and the predicate that decides which operators are shown.
- The **skin table transform** of `scripts/skins.mjs`. It groups the Chinese skin table by obtainable operator and takes each name from the English table when there is one.

Files:

- `wrappers.dfy`: `Option`.
- `depot.dfy` (module `Depot`):
  - the depot records and the two trackers;
  - `putDepot` as a left fold (`Step`, `FoldItems`, `Put`);
  - `resetDepot`, the tracker clear of `syncDepotToDB`, and `hasUnsavedChanges`;
  - the tracker invariant `TrackerInv`, which says the trackers describe exactly how the depot differs from the remote stock.
- `bootstrap.dfy` (module `DepotLoader`): the partition of fetched rows into the new depot and the ids to delete.
- `session.dfy` (module `DepotSession`):
  - the whole engine as an event machine over the hook state, the pending debounced call and the remote rows;
  - the invariant it keeps;
  - the two defects of the source, exhibited on concrete runs.
- `filter.dfy` (module `RosterFilter`): the filter state, its operations, the per-category checks, and `filterFunction` against a reference conjunction.
- `skins.dfy` (module `SkinTable`): `isOperator` and the grouping and naming body of `createSkinsJson`.

Modelling choices:

- React state becomes an explicit `State` value. Each callback is a pure function from the old state to the new one, and `setState` is the returned value.
- The payload `Object.values(rawUpdate)` is modelled by the map itself. The upsert replaces the row of each record's material, which matches the keys because every record is stored under its own material id (`WellKeyed`).
- The `in` test against `items.json` is a set of names, `catalog`. That set includes any inherited property name the JS `in` operator would accept.
- `Policy` selects between the hook as written (`Source`) and the hook with both findings fixed (`Corrected`). The invariant theorems are stated for `Corrected`. The concrete runs in `DepotSession` show `Source` breaking it.

## Model

| member | source | states |
|---|---|---|
| Depot.Step | src/util/hooks/useDepot.ts:60-81 | One item sets its key's stock; `hasChanges` turns true exactly when the item differs from the key's current stock (0 when absent); a differing item leaves the key tracked against its baseline with a bare record; every other key's record and tracker entries are unchanged, and no snapshot is overwritten |
| Depot.FoldItems | src/util/hooks/useDepot.ts:60-81 | The loop never removes a key from the depot copy and never overwrites a snapshot |
| Depot.Put | src/util/hooks/useDepot.ts:47-91 | A batch with no effective change leaves depot and trackers alone and schedules nothing; otherwise the new `rawUpdate` is the payload, handed to the immediate sync exactly when `immediate` is set |
| Depot.PutNoOpIff | src/util/hooks/useDepot.ts:60-83 | A batch is a no-op (same state, no sync) if and only if every item repeats its key's current stock, an absent key counting as 0 |
| Depot.PutShape | src/util/hooks/useDepot.ts:51-55 | After an effective batch every record lacks `user_id`, no key is removed, every new key is named by the batch, an unnamed key keeps its record up to `user_id`, and each named key ends with the stock of its last item |
| Depot.PutSnapshots | src/util/hooks/useDepot.ts:64-66 | An `ogValues` entry is never overwritten; the first effective change of an existing key without one records its pre-change record without `user_id`; with the corrected rule a brand-new key's baseline stays 0 |
| Depot.PutTracks | src/util/hooks/useDepot.ts:72-78 | A changed key is in `rawUpdate` exactly when its new stock differs from its baseline (0 when it has none), as its bare record; a key whose items all repeat its stock keeps its stock and both tracker entries |
| Depot.FoldChanged | src/util/hooks/useDepot.ts:58-81 | `hasChanges` ends true exactly when some item differs from the stock it started from; with no such item the loop changes nothing |
| Depot.FoldUntouched | src/util/hooks/useDepot.ts:63 | A key all of whose items repeat its stock keeps its depot record and both tracker entries |
| Depot.FoldKeepsTracked | src/util/hooks/useDepot.ts:73-78 | Once a key's pending entry matches "stock differs from baseline", later items keep it so |
| Depot.FoldTracks | src/util/hooks/useDepot.ts:63-79 | A key with an effective change ends tracked against its baseline, with a bare record in the depot copy |
| Depot.FoldSnapshotsFirst | src/util/hooks/useDepot.ts:65-66 | The first effective change of a key eligible for a snapshot records the record it held just before |
| Depot.FoldLastWins | src/util/hooks/useDepot.ts:60-71 | Duplicate items apply in order: the last item naming a key sets its stock |
| Depot.FoldAtKey | src/util/hooks/useDepot.ts:60-81 | Everything the loop does to one key: untouched, tracked, snapshot kept or taken, key kept, last item wins |
| Depot.FoldKeepsZeroBaseline | src/util/hooks/useDepot.ts:65-66 | With the corrected rule, a key whose baseline is 0 never acquires a snapshot with another stock |
| Depot.PutKeepsTrackerInv | src/util/hooks/useDepot.ts:47-91 | With the corrected snapshot rule, a `put` keeps the trackers an exact record of how the depot differs from the remote stock |
| Depot.StepKeepsTrackerInv | src/util/hooks/useDepot.ts:60-81 | One loop iteration under the corrected rule keeps the tracker invariant |
| Depot.FoldKeepsTrackerInv | src/util/hooks/useDepot.ts:60-81 | The whole loop under the corrected rule keeps the tracker invariant |
| Depot.ResetDepot | src/util/hooks/useDepot.ts:95-99 | The zeroed depot has the same keys and material ids, every stock 0 (an absent key counting as 0), no `user_id`, and stays keyed by material id |
| Depot.Reset | src/util/hooks/useDepot.ts:94-102 | Reset keeps every key and material id, drops `user_id`, sets every stock to 0, leaves the trackers untouched and syncs the whole zeroed depot at once |
| Depot.SyncToDb | src/util/hooks/useDepot.ts:20-35 | An empty list, a missing session or a failed upsert leaves the trackers as they were; a successful upsert empties both, so no unsaved change remains |
| Depot.HasUnsavedChanges | src/util/hooks/useDepot.ts:146 | The flag holds exactly when some key is pending in `rawUpdate` |
| DepotLoader.Bootstrap | src/util/hooks/useDepot.ts:105-136 | Signed out, nothing changes and nothing is deleted; signed in, the depot is exactly the catalogued ids some row names (the known rows' ids), each the bare record of its last row and keyed by its own id (empty when the select returns no data), and the delete list is the orphans in order |
| DepotLoader.PartitionFromEmpty | src/util/hooks/useDepot.ts:117-131 | Run from empty result lists, the loop keeps exactly the catalogued ids some row names, each with its last row's stock, all stored bare under their own ids |
| DepotLoader.KnownIdsHas | src/util/hooks/useDepot.ts:119-127 | An id is among the known rows' ids exactly when it is catalogued and some fetched row names it |
| DepotLoader.KnownAndOrphansSplitRows | src/util/hooks/useDepot.ts:119-131 | Every fetched row is either catalogued or orphaned, never both, and each lands in the list it belongs to |
| DepotLoader.PartitionRows | src/util/hooks/useDepot.ts:117-131 | The loop never drops a key it already holds, and the trash list it builds is the orphaned material ids in row order, duplicates included |
| DepotLoader.PartitionKnown | src/util/hooks/useDepot.ts:120-127 | A catalogued id takes the bare record of its last row; other ids are untouched by the loop |
| DepotLoader.PartitionShape | src/util/hooks/useDepot.ts:124-127 | The loop stores only bare records under their own material id |
| DepotSession.Upsert | src/util/hooks/useDepot.ts:29 | The upsert keeps every stored row it does not name and replaces or adds each row it names |
| DepotSession.Flush | src/util/hooks/useDepot.ts:20-43 | A sync whose upsert reaches the store and succeeds upserts the payload and clears both trackers; an empty payload or a failed upsert changes neither store nor trackers; the depot and the pending call are untouched |
| DepotSession.Apply | src/util/hooks/useDepot.ts:38-152 | An edit with no effective change does nothing; an effective debounced edit stores the new state, leaves the store alone and arms the pending call with the new `rawUpdate`; an effective immediate edit upserts that `rawUpdate` and clears the trackers when the upsert succeeds, and keeps (as written) or cancels (corrected) the pending call; a firing upserts the pending payload and clears the trackers on success, otherwise changes nothing, and always clears the pending call; a refresh re-arms the pending call with the current `rawUpdate` when something is unsaved and otherwise does nothing; a reset zeroes every stock locally, and remotely for every local key when its upsert succeeds, keeping or cancelling the pending call the same way |
| DepotSession.UnsavedIffOutOfSync | src/util/hooks/useDepot.ts:146 | Under the invariant, `hasUnsavedChanges` holds exactly when the depot and the remote store disagree on some stock |
| DepotSession.FlushPendingKeepsInv | src/util/hooks/useDepot.ts:20-35 | Upserting the whole `rawUpdate` keeps the invariant whether the upsert succeeds or fails |
| DepotSession.ResetKeepsInv | src/util/hooks/useDepot.ts:94-102 | A reset whose upsert succeeds leaves every stock 0 both locally and remotely, with the trackers consistent |
| DepotSession.FireSyncs | src/util/hooks/useDepot.ts:38-43 | Under the corrected engine and the invariant, a successful firing leaves the depot and the store in agreement, nothing unsaved and nothing pending |
| DepotSession.ImmediateEditSyncs | src/util/hooks/useDepot.ts:88 | Under the corrected engine and the invariant, an effective immediate edit whose upsert succeeds leaves the depot and the store in agreement, nothing unsaved and nothing pending |
| DepotSession.ApplyKeepsInv | src/util/hooks/useDepot.ts:38-152 | With both corrections, every edit, debounce firing, refresh and successful reset keeps the invariant (`refreshDebounce` re-arms with the current `rawUpdate`, lines 149-152) |
| DepotSession.RunKeepsInv | src/util/hooks/useDepot.ts:145-152 | Through any run without a failed reset, the corrected engine keeps the invariant, and the unsaved flag stays equivalent to "local and remote disagree" |
| DepotSession.RowsToMapHas | src/util/hooks/useDepot.ts:115 | The store as the fetched rows holds a material exactly when some row names it |
| DepotSession.RowsToMapLast | src/util/hooks/useDepot.ts:115 | A material's entry in the store is its last row |
| DepotSession.Mount | src/util/hooks/useDepot.ts:105-143 | After the fetch effect the trackers are clean and nothing is pending; the depot holds the catalogued ids the select returned (none when it fails); the store keeps exactly the materials some row names, less the orphans when the select returned them, each with its stored row |
| DepotSession.MountKeepsInv | src/util/hooks/useDepot.ts:105-143 | Right after a signed-in mount whose select returns the stored rows and whose delete succeeds, the invariant holds and the depot agrees with the store on every material |
| DepotSession.MountFailedSelect | src/util/hooks/useDepot.ts:115-136 | A failed select (null data) stores an empty depot with clean trackers while the store keeps every row, so any stored material with stock other than 0 is out of sync, the invariant fails, and no unsaved change is reported |
| DepotSession.SourceLosesNewMaterial | src/util/hooks/useDepot.ts:65 | As written: a new material edited 5, 7, then 5 ends at 5 locally, absent remotely, with no unsaved change reported |
| DepotSession.SourceResetRevivedByStaleDebounce | src/util/hooks/useDepot.ts:94-101 | As written: a reset after a debounced edit is overwritten by the stale debounced payload, with no unsaved change reported |
| DepotSession.SourceImmediateRevivedByStaleDebounce | src/util/hooks/useDepot.ts:88 | As written: an immediate edit after a debounced one is overwritten by the stale debounced payload |
| RosterFilter.With | src/util/hooks/useFilter.ts:62-63 | Replacing one category's set changes that category only |
| RosterFilter.Init | src/util/hooks/useFilter.ts:45-56 | Each category starts as the supplied set, or empty when none is supplied |
| RosterFilter.Clear | src/util/hooks/useFilter.ts:72-74 | Every category becomes empty |
| RosterFilter.Toggle | src/util/hooks/useFilter.ts:60-70 | The toggled value flips membership in its category; every other value and every other category is unchanged |
| RosterFilter.ToggleTwice | src/util/hooks/useFilter.ts:64-66 | Toggling the same value twice restores the filters |
| RosterFilter.CheckOwned | src/util/hooks/useFilter.ts:7 | An operator with potential above 0 passes when "owned" is selected, any other when "not owned" is |
| RosterFilter.CheckModuleCnOnly | src/util/hooks/useFilter.ts:11-12 | Fails without module data; otherwise passes when "CN only" is selected and some module is CN-only, or "not CN only" is selected and some module is not |
| RosterFilter.CheckMastery | src/util/hooks/useFilter.ts:14-19 | Fails without masteries; otherwise a selected 0 passes all-zero masteries (none included) and a selected non-zero value passes when some mastery equals it |
| RosterFilter.CheckModuleLevel | src/util/hooks/useFilter.ts:20-25 | The same rule over the values of `modules`; a missing map fails |
| RosterFilter.Check | src/util/hooks/useFilter.ts:5-25 | Every category's check needs a selected value, so an empty selection passes nothing |
| RosterFilter.FilterFunction | src/util/hooks/useFilter.ts:76-92 | The chain of early returns accepts an operator exactly when every non-empty category's check passes (the reference conjunction) and the name matches the search |
| RosterFilter.PassesByCategory | src/util/hooks/useFilter.ts:78-87 | The reference conjunction, category by category, in the order the source tests them |
| RosterFilter.EmptyFiltersMatchNameOnly | src/util/hooks/useFilter.ts:72-88 | With all categories empty (after clear, or from an empty init), only the name match decides |
| RosterFilter.LevelsMatchByLevels | src/util/hooks/useFilter.ts:14-25 | The level rule passes when 0 is selected and every level is 0, or when some non-zero level is selected |
| RosterFilter.SeqLevels | src/util/hooks/useFilter.ts:14-19 | The level rule over the mastery list is the rule over its elements |
| RosterFilter.MapLevels | src/util/hooks/useFilter.ts:20-25 | The level rule over `Object.values(modules)` is the rule over the map's entries |
| RosterFilter.CheckMonotone | src/util/hooks/useFilter.ts:5-25 | Selecting more values in a category never rejects an operator that category accepted |
| SkinTable.IsOperator | scripts/skins.mjs:9-12 | Tokens, traps and unobtainable characters are not operators; every other character is |
| SkinTable.SkinName | scripts/skins.mjs:23 | The English name when the English table has the skin with a name, the Chinese name otherwise; unnamed only when neither names it |
| SkinTable.Entry | scripts/skins.mjs:21-26 | An entry copies skin id, avatar id and sort id from the Chinese skin and takes its name by the English-first rule |
| SkinTable.Group | scripts/skins.mjs:17-27 | The loop never removes a character already in the map |
| SkinTable.GroupAppends | scripts/skins.mjs:17-27 | The loop appends each character's kept skins, in input order, to whatever the map already held for it |
| SkinTable.GroupKeys | scripts/skins.mjs:17-27 | A character is in the result exactly when it was already there or has a kept skin |
| SkinTable.EntriesForNonEmpty | scripts/skins.mjs:17-20 | A character has entries exactly when it is an operator with some skin in the table |
| SkinTable.EntriesForFrom | scripts/skins.mjs:17-26 | Every entry of a character is built from one of that character's skins |
| SkinTable.GroupCount | scripts/skins.mjs:17-27 | Each kept skin adds exactly one entry to the total |
| SkinTable.CreateSkins | scripts/skins.mjs:14-28 | The output has a list exactly for the obtainable operators with at least one skin; each list is that character's skins in input order, never empty; and it holds exactly as many entries as there are kept skins |

## Left out

- Supabase I/O: the session lookup, the upsert, the select and the delete are atomic steps whose outcome is an input (`signedIn` in `Depot` and `DepotLoader`, `ok`, `fetched`, `selectOk`), and `handlePostgrestError` is not modelled.
- `DepotSession`: the user is signed in throughout; a signed-out session, where every sync returns at useDepot.ts:27, is not modelled.
- Debounce timing: the 5-second window is not modelled; `Fire` is the moment the pending call runs, and at most one call is pending, as with lodash's trailing debounce.
- Asynchrony: each `await` is treated as completing before the next event, so a `put` landing while an upsert is in flight, and the stale closures React callbacks capture, are not modelled.
- The `isCanceled` flag of the fetch effect: it is never set before `_setDepot` runs, so the effect always stores the result; the cleanup it returns is not modelled.
- `DepotSession.MountKeepsInv`: holds only when the select returns the stored rows; a failed select wipes the depot while the store keeps its rows, which `DepotSession.MountFailedSelect` exhibits rather than excludes.
- A failed or skipped delete of orphaned rows at mount: `Mount` assumes the delete succeeds; otherwise the orphan rows stay remote but never enter the depot.
- `DepotSession.RunKeepsInv`: excludes a reset whose upsert fails; the depot is then zero while the trackers still describe the old edits, and the hook relies on the user retrying.
- `SkinTable.CreateSkins`: requires every skin's character to be in the character table; the script would crash on a missing one and that crash is not modelled.
- The order of `Object.values` over the Chinese skin table is taken as the order of the input sequence; JavaScript's key-ordering rules are not modelled.
- `matchOperatorName` is not part of this model; it is a function parameter.
- Numeric values are modelled as integers; the source's float numbers are not modelled.
- Writing `skins.json`, the path computation and the log line of `createSkinsJson` are not modelled.
- `src/components/planner/depot/ItemNeeded.tsx` and `src/pages/data/presets.tsx` are UI components outside this model; neither calls `useDepot` or `useFilter`.

## Findings

| source | as written | input that shows it | evidently intended | confidence | as-written member | corrected member |
|---|---|---|---|---|---|---|
| src/util/hooks/useDepot.ts:65 | The snapshot test `!ogValues[id] && depotCopy[id]` also fires for a key created by an earlier unsynced change, so that unsynced value becomes the key's baseline | Empty depot; put 30012 at 5 then 7 in one debounced batch, put 30012 at 5, debounce fires: depot holds 5, store has no row, `hasUnsavedChanges` is false | A key that is already pending keeps the baseline it had (0 for a new key), so the edit stays pending | not executed | DepotSession.SourceLosesNewMaterial | Depot.PutKeepsTrackerInv |
| src/util/hooks/useDepot.ts:88, 94-101 | An immediate `put` and `resetDepot` call `syncDepotToDB` directly and leave the debounced call armed with an older payload | Store and depot at 5; debounced put of 8; reset (upsert 0 succeeds); debounce fires: store holds 8, depot 0, no unsaved change | A direct sync cancels the pending debounced call | not executed | DepotSession.SourceResetRevivedByStaleDebounce | DepotSession.FireSyncs | src/util/hooks/useDepot.ts:38-43 | Under the corrected engine and the invariant, a successful firing leaves the depot and the store in agreement, nothing unsaved and nothing pending |
| DepotSession.ImmediateEditSyncs | src/util/hooks/useDepot.ts:88 | Under the corrected engine and the invariant, an effective immediate edit whose upsert succeeds leaves the depot and the store in agreement, nothing unsaved and nothing pending |
| DepotSession.ApplyKeepsInv |

=== FILE: bootstrap.dfy ===
/**
 * The bootstrap loader of `useDepot`: the rows fetched for the signed-in user
 * are split into rows whose material is in the item catalog, which become the
 * depot, and orphaned material ids, which are deleted from the remote store.
 *
 * `catalog` stands for the item table: it is the set of names the `in`
 * operator accepts for that object.
 */
module DepotLoader {
  import opened Wrappers
  import opened Depot

  /** The loop variables `depotResult` and `depotTrash`. */
  datatype Partition = Partition(known: Depot, trash: seq<string>)

  const Empty := Partition(map[], [])

  /** One iteration of `_depot.forEach`. */
  function PartitionStep(p: Partition, row: DepotItem, catalog: set<string>): Partition {
    if row.materialId in catalog then
      Partition(p.known[row.materialId := Bare(row.materialId, row.stock)], p.trash)
    else
      Partition(p.known, p.trash + [row.materialId])
  }

  /**
   * The whole `_depot.forEach` loop. It only ever adds keys to the new depot,
   * and the trash list it builds is the orphaned ids in row order,
   * duplicates included.
   */
  function PartitionRows(p: Partition, rows: seq<DepotItem>, catalog: set<string>): (r: Partition)
    ensures p.known.Keys <= r.known.Keys
    ensures r.trash == p.trash + Orphans(rows, catalog)
    decreases |rows|
  {
    if |rows| == 0 then p
    else
      var q := PartitionStep(p, rows[0], catalog);
      OrphansAfter(p.trash, rows, catalog);
      PartitionRows(q, rows[1..], catalog)
  }

  /** Reference definition: the rows whose material is in the catalog, in order. */
  function Known(rows: seq<DepotItem>, catalog: set<string>): seq<DepotItem> {
    if |rows| == 0 then []
    else (if rows[0].materialId in catalog then [rows[0]] else []) + Known(rows[1..], catalog)
  }

  /** The material ids of the catalogued rows. */
  function KnownIds(rows: seq<DepotItem>, catalog: set<string>): set<string> {
    set j | 0 <= j < |Known(rows, catalog)| :: Known(rows, catalog)[j].materialId
  }

  /** Reference definition: the material ids of the rows not in the catalog, in order. */
  function Orphans(rows: seq<DepotItem>, catalog: set<string>): seq<string> {
    if |rows| == 0 then []
    else (if rows[0].materialId in catalog then [] else [rows[0].materialId]) + Orphans(rows[1..], catalog)
  }

  /** Trashing the first row's id, if orphaned, and then the rest's orphans trashes all of the rows' orphans. */
  lemma OrphansAfter(trash: seq<string>, rows: seq<DepotItem>, catalog: set<string>)
    requires |rows| > 0
    ensures (trash + (if rows[0].materialId in catalog then [] else [rows[0].materialId])) + Orphans(rows[1..], catalog)
      == trash + Orphans(rows, catalog)
  {
    var head := if rows[0].materialId in catalog then [] else [rows[0].materialId];
    assert Orphans(rows, catalog) == head + Orphans(rows[1..], catalog);
    assert (trash + head) + Orphans(rows[1..], catalog) == trash + (head + Orphans(rows[1..], catalog));
  }

  /** The new depot and the ids whose rows are deleted (an empty list means no delete call). */
  datatype BootResult = BootResult(depot: Depot, deleted: seq<string>)

  /**
   * The body of the fetch effect. Signed out, the depot is left alone and
   * nothing is deleted. Otherwise the catalogued rows replace the depot
   * wholesale, even when there are none (a select that returns no data counts
   * as no rows): its keys are the material ids of the catalogued rows, each
   * holding the bare record of its last row, and the delete request is the
   * orphaned ids in row order.
   */
  function Bootstrap(depot: Depot, signedIn: bool, fetched: Option<seq<DepotItem>>, catalog: set<string>): (r: BootResult)
    ensures !signedIn ==> r == BootResult(depot, [])
    ensures signedIn ==> r.deleted == Orphans(fetched.GetOr([]), catalog)
    ensures signedIn ==> r.depot.Keys == KnownIds(fetched.GetOr([]), catalog)
    ensures signedIn ==> forall k, i | k in catalog && IsLast(fetched.GetOr([]), i, k) ::
      k in r.depot && r.depot[k] == Bare(k, fetched.GetOr([])[i].stock)
    ensures signedIn ==> WellKeyed(r.depot) && AllBare(r.depot)
  {
    if !signedIn then BootResult(depot, [])
    else
      var rows := fetched.GetOr([]);
      PartitionFromEmpty(rows, catalog);
      KnownIdsExact(rows, catalog);
      var p := PartitionRows(Empty, rows, catalog);
      BootResult(p.known, p.trash)
  }

  /** Every row lands in exactly one of the two lists, each element where it belongs. */
  lemma {:induction false} KnownAndOrphansSplitRows(rows: seq<DepotItem>, catalog: set<string>)
    ensures |Known(rows, catalog)| + |Orphans(rows, catalog)| == |rows|
    ensures forall j | 0 <= j < |Known(rows, catalog)| :: Known(rows, catalog)[j].materialId in catalog
    ensures forall j | 0 <= j < |Orphans(rows, catalog)| :: Orphans(rows, catalog)[j] !in catalog
    ensures forall i | 0 <= i < |rows| && rows[i].materialId in catalog :: rows[i] in Known(rows, catalog)
    ensures forall i | 0 <= i < |rows| && rows[i].materialId !in catalog :: rows[i].materialId in Orphans(rows, catalog)
    decreases |rows|
  {
    if |rows| > 0 {
      var rest := rows[1..];
      KnownAndOrphansSplitRows(rest, catalog);
      assert forall i | 0 < i < |rows| :: rows[i] == rest[i - 1];
    }
  }

  /**
   * A catalogued key takes the bare record of its last row; a key no row
   * names, or one outside the catalog, is left as it was.
   */
  lemma {:induction false} PartitionKnown(p: Partition, rows: seq<DepotItem>, catalog: set<string>, k: string)
    ensures k !in catalog || !Mentions(rows, k) ==> SameAt(p.known, PartitionRows(p, rows, catalog).known, k)
    ensures forall i | k in catalog && IsLast(rows, i, k) ::
      k in PartitionRows(p, rows, catalog).known && PartitionRows(p, rows, catalog).known[k] == Bare(k, rows[i].stock)
    decreases |rows|
  {
    if |rows| > 0 {
      var q := PartitionStep(p, rows[0], catalog);
      var rest := rows[1..];
      PartitionKnown(q, rest, catalog, k);
      assert forall i | 0 <= i < |rest| :: rest[i] == rows[i + 1];
      if !Mentions(rows, k) {
        assert !Mentions(rest, k);
      }
      forall i | k in catalog && IsLast(rows, i, k)
        ensures k in PartitionRows(p, rows, catalog).known
        ensures PartitionRows(p, rows, catalog).known[k] == Bare(k, rows[i].stock)
      {
        if i == 0 {
          assert !Mentions(rest, k);
        } else {
          assert IsLast(rest, i - 1, k);
        }
      }
    }
  }

  /** The loop from empty keeps the catalogued ids some row names, each with its last row; `PartitionRows` itself says what it trashes. */
  lemma PartitionFromEmpty(rows: seq<DepotItem>, catalog: set<string>)
    ensures PartitionRows(Empty, rows, catalog).known.Keys == KnownIds(rows, catalog)
    ensures forall k, i | k in catalog && IsLast(rows, i, k) ::
      k in PartitionRows(Empty, rows, catalog).known && PartitionRows(Empty, rows, catalog).known[k] == Bare(k, rows[i].stock)
    ensures WellKeyed(PartitionRows(Empty, rows, catalog).known) && AllBare(PartitionRows(Empty, rows, catalog).known)
  {
    var p := PartitionRows(Empty, rows, catalog);
    PartitionShape(Empty, rows, catalog);
    KnownIdsExact(rows, catalog);
    forall k
      ensures k in p.known <==> k in catalog && Mentions(rows, k)
    {
      PartitionKnown(Empty, rows, catalog, k);
      if k in catalog && Mentions(rows, k) {
        LastExists(rows, k);
      }
    }
    forall k, i | k in catalog && IsLast(rows, i, k)
      ensures k in p.known && p.known[k] == Bare(k, rows[i].stock)
    {
      PartitionKnown(Empty, rows, catalog, k);
    }
  }

  /** A material id is among the catalogued rows' ids exactly when it is catalogued and some row names it. */
  lemma {:induction false} KnownIdsHas(rows: seq<DepotItem>, catalog: set<string>, k: string)
    ensures k in KnownIds(rows, catalog) <==> k in catalog && Mentions(rows, k)
    decreases |rows|
  {
    if |rows| > 0 {
      var rest := rows[1..];
      KnownIdsHas(rest, catalog, k);
      var head := if rows[0].materialId in catalog then [rows[0]] else [];
      var kn, kt := Known(rows, catalog), Known(rest, catalog);
      assert kn == head + kt;
      if k in KnownIds(rows, catalog) {
        var j :| 0 <= j < |kn| && kn[j].materialId == k;
        if j < |head| {
          assert rows[0].materialId == k && k in catalog;
        } else {
          assert kn[j] == kt[j - |head|];
          assert k in KnownIds(rest, catalog);
          var i :| 0 <= i < |rest| && rest[i].materialId == k;
          assert rows[i + 1] == rest[i];
        }
      }
      if k in catalog && Mentions(rows, k) {
        var i :| 0 <= i < |rows| && rows[i].materialId == k;
        if rows[0].materialId == k {
          assert kn[0] == rows[0];
        } else {
          assert i > 0 && rest[i - 1] == rows[i];
          assert Mentions(rest, k);
          var j :| 0 <= j < |kt| && kt[j].materialId == k;
          assert kn[j + |head|] == kt[j];
        }
      }
    }
  }

  lemma KnownIdsExact(rows: seq<DepotItem>, catalog: set<string>)
    ensures forall k :: k in KnownIds(rows, catalog) <==> k in catalog && Mentions(rows, k)
  {
    forall k
      ensures k in KnownIds(rows, catalog) <==> k in catalog && Mentions(rows, k)
    {
      KnownIdsHas(rows, catalog, k);
    }
  }

  /** The loop only ever stores bare records under their own material id. */
  lemma {:induction false} PartitionShape(p: Partition, rows: seq<DepotItem>, catalog: set<string>)
    requires WellKeyed(p.known) && AllBare(p.known)
    ensures WellKeyed(PartitionRows(p, rows, catalog).known) && AllBare(PartitionRows(p, rows, catalog).known)
    decreases |rows|
  {
    if |rows| > 0 {
      PartitionShape(PartitionStep(p, rows[0], catalog), rows[1..], catalog);
    }
  }
}

=== FILE: depot.dfy ===
/**
 * The change-tracking reducer of the `useDepot` hook: the fold `putDepot` runs
 * over a batch of edits, the zeroing done by `resetDepot`, the tracker clear
 * after a successful upsert, and the `hasUnsavedChanges` flag.
 *
 * The hook's React state becomes an explicit `State` value and every callback
 * a pure function from the old state to the new one. Remote calls are left to
 * the session model; here a sync is only the payload it would carry.
 */
module Depot {
  import opened Wrappers

  /** A depot row. Rows read back from the remote store also carry the owner's `user_id`. */
  datatype DepotItem = DepotItem(materialId: string, stock: int, userId: Option<string>)

  /** `Record<string, DepotItem>`, keyed by material id. */
  type Depot = map<string, DepotItem>

  /** `rawUpdate` holds the pending changes; `ogValues` the record of each dirty key before its first unsynced change. */
  datatype Trackers = Trackers(rawUpdate: Depot, ogValues: Depot)

  datatype State = State(depot: Depot, trackers: Trackers)

  const Clean := Trackers(map[], map[])

  /** The record `{material_id, stock}`, with no `user_id`. */
  function Bare(id: string, stock: int): DepotItem {
    DepotItem(id, stock, None)
  }

  /** `const { user_id, ...rest } = item` */
  function Strip(d: DepotItem): DepotItem {
    d.(userId := None)
  }

  /** `m[id]?.stock ?? 0`: an absent key counts as stock 0. */
  function StockOf(m: Depot, id: string): int {
    if id in m then m[id].stock else 0
  }

  function StripAll(m: Depot): Depot {
    map k | k in m :: Strip(m[k])
  }

  predicate WellKeyed(m: Depot) {
    forall k | k in m :: m[k].materialId == k
  }

  predicate AllBare(m: Depot) {
    forall k | k in m :: m[k].userId == None
  }

  /** `k` is absent from both maps or holds the same record in both. */
  predicate SameAt(a: Depot, b: Depot, k: string) {
    (k in a <==> k in b) && (k in a ==> a[k] == b[k])
  }

  /** The depot record and both tracker entries of `k` are the same in `a` and `b`. */
  predicate SameStateAt(a: State, b: State, k: string) {
    && SameAt(a.depot, b.depot, k)
    && SameAt(a.trackers.rawUpdate, b.trackers.rawUpdate, k)
    && SameAt(a.trackers.ogValues, b.trackers.ogValues, k)
  }

  /**
   * `k` is pending exactly when its stock differs from its baseline (its
   * `ogValues` stock, 0 when there is none), and a pending entry is the bare
   * current record.
   */
  predicate Tracked(s: State, k: string) {
    var raw := s.trackers.rawUpdate;
    && (k in raw <==> StockOf(s.depot, k) != StockOf(s.trackers.ogValues, k))
    && (k in raw ==> raw[k] == Bare(k, StockOf(s.depot, k)))
  }

  /** Some item of the batch names `k`. */
  predicate Mentions(items: seq<DepotItem>, k: string) {
    exists i | 0 <= i < |items| :: items[i].materialId == k
  }

  /** Every item of the batch that names `k` carries `stock`. */
  predicate Keeps(items: seq<DepotItem>, k: string, stock: int) {
    forall i | 0 <= i < |items| && items[i].materialId == k :: items[i].stock == stock
  }

  /** `items[i]` is the last item of the batch that names `k`. */
  predicate IsLast(items: seq<DepotItem>, i: int, k: string) {
    && 0 <= i < |items|
    && items[i].materialId == k
    && forall j | i < j < |items| :: items[j].materialId != k
  }

  /** A key some item names has a last item naming it. */
  lemma {:induction false} LastExists(rows: seq<DepotItem>, k: string)
    requires Mentions(rows, k)
    ensures exists i :: IsLast(rows, i, k)
    decreases |rows|
  {
    var rest := rows[1..];
    assert forall i | 0 <= i < |rest| :: rest[i] == rows[i + 1];
    if Mentions(rest, k) {
      LastExists(rest, k);
      var i :| IsLast(rest, i, k);
      assert IsLast(rows, i + 1, k);
    } else {
      assert IsLast(rows, 0, k);
    }
  }

  // ---------------------------------------------------------------------------
  // The fold of putDepot
  // ---------------------------------------------------------------------------

  /**
   * When the first change of a key records its pre-change value. `AsWritten`
   * is the source's test: the key has no `ogValues` entry and is in the depot
   * copy. `DirtyAware` also requires that the key is not already pending, so a
   * key created in this dirty window keeps its baseline of 0.
   */
  datatype SnapshotRule = AsWritten | DirtyAware

  /** The loop variables of `putDepot`: `depotCopy`, `_rawDepotUpdate`, `_ogDepotValues`, `hasChanges`. */
  datatype Fold = Fold(copy: Depot, raw: Depot, og: Depot, changed: bool)

  function View(f: Fold): State {
    State(f.copy, Trackers(f.raw, f.og))
  }

  predicate TakesSnapshot(rule: SnapshotRule, f: Fold, id: string) {
    id !in f.og && id in f.copy && (rule == DirtyAware ==> id !in f.raw)
  }

  /**
   * One iteration of the `items.forEach` body. An item that repeats its
   * key's stock is skipped; otherwise the key takes the item's stock and is
   * tracked against its baseline. No other key is touched and no snapshot is
   * overwritten.
   */
  function Step(rule: SnapshotRule, f: Fold, item: DepotItem): (r: Fold)
    ensures StockOf(r.copy, item.materialId) == item.stock
    ensures r.changed <==> f.changed || StockOf(f.copy, item.materialId) != item.stock
    ensures StockOf(f.copy, item.materialId) != item.stock ==>
      && Tracked(View(r), item.materialId)
      && item.materialId in r.copy && r.copy[item.materialId] == Bare(item.materialId, item.stock)
    ensures forall k | k != item.materialId :: SameStateAt(View(f), View(r), k)
    ensures forall k | k in f.og :: k in r.og && r.og[k] == f.og[k]
  {
    var id := item.materialId;
    if StockOf(f.copy, id) == item.stock then f
    else
      var og := if TakesSnapshot(rule, f, id) then f.og[id := f.copy[id]] else f.og;
      var rec := Bare(id, item.stock);
      var raw := if item.stock != StockOf(og, id) then f.raw[id := rec] else f.raw - {id};
      Fold(f.copy[id := rec], raw, og, true)
  }

  /** The whole `items.forEach` loop. Snapshots are only ever added and no key leaves the depot copy. */
  function FoldItems(rule: SnapshotRule, f: Fold, items: seq<DepotItem>): (r: Fold)
    ensures f.copy.Keys <= r.copy.Keys
    ensures forall k | k in f.og :: k in r.og && r.og[k] == f.og[k]
    decreases |items|
  {
    if |items| == 0 then f else FoldItems(rule, Step(rule, f, items[0]), items[1..])
  }

  /** The fold's starting point: the depot without `user_id`s and copies of both trackers. */
  function Start(s: State): Fold {
    Fold(StripAll(s.depot), s.trackers.rawUpdate, s.trackers.ogValues, false)
  }

  /** What a state change asks of the sync engine. */
  datatype Sync = NoSync | SyncNow(payload: Depot) | SyncDebounced(payload: Depot)

  datatype PutResult = PutResult(state: State, sync: Sync)

  /**
   * `putDepot(items, immediate)`. With no effective change nothing is written
   * and no sync is scheduled; otherwise the new depot and trackers replace the
   * old ones and the new `rawUpdate` is handed to the immediate or the
   * debounced sync.
   */
  function Put(rule: SnapshotRule, s: State, items: seq<DepotItem>, immediate: bool): (r: PutResult)
    ensures r.sync == NoSync ==> r.state == s
    ensures r.sync != NoSync ==> r.sync.payload == r.state.trackers.rawUpdate
    ensures r.sync != NoSync ==> (r.sync.SyncNow? <==> immediate)
  {
    var f := FoldItems(rule, Start(s), items);
    if !f.changed then PutResult(s, NoSync)
    else
      var sync := if immediate then SyncNow(f.raw) else SyncDebounced(f.raw);
      PutResult(View(f), sync)
  }

  // ---------------------------------------------------------------------------
  // Reset, sync and the unsaved-changes flag
  // ---------------------------------------------------------------------------

  /** `resetDepot`: every record keeps its key and material id, loses its `user_id` and gets stock 0. */
  function ResetDepot(depot: Depot): (r: Depot)
    ensures r.Keys == depot.Keys
    ensures forall k | k in r :: r[k].materialId == depot[k].materialId
    ensures forall k :: StockOf(r, k) == 0
    ensures AllBare(r)
    ensures WellKeyed(depot) ==> WellKeyed(r)
  {
    map k | k in depot :: DepotItem(depot[k].materialId, 0, None)
  }

  /** The reset state change: the zeroed depot, untouched trackers, and the whole zeroed depot synced at once. */
  function Reset(s: State): (r: PutResult)
    ensures r.state.trackers == s.trackers
    ensures r.sync == SyncNow(r.state.depot)
    ensures r.state.depot.Keys == s.depot.Keys
    ensures forall k | k in r.state.depot :: StockOf(r.state.depot, k) == 0 && Strip(s.depot[k]).(stock := 0) == r.state.depot[k]
  {
    var zeroed := ResetDepot(s.depot);
    PutResult(State(zeroed, s.trackers), SyncNow(zeroed))
  }

  /** The upsert of `syncDepotToDB` reaches the store and succeeds. */
  predicate Writes(items: Depot, signedIn: bool, ok: bool) {
    |items| > 0 && signedIn && ok
  }

  /**
   * The tracker part of `syncDepotToDB(Object.values(items))`: an empty list or
   * a missing session returns early, a failed upsert leaves the trackers as
   * they were, and a successful one empties both maps.
   */
  function SyncToDb(tr: Trackers, items: Depot, signedIn: bool, ok: bool): (r: Trackers)
    ensures !Writes(items, signedIn, ok) ==> r == tr
    ensures Writes(items, signedIn, ok) ==> !HasUnsavedChanges(r) && r.ogValues == map[]
  {
    if |items| == 0 || !signedIn then tr
    else if ok then Clean
    else tr
  }

  /** `Object.keys(rawUpdate).length > 0`: some key is pending. */
  function HasUnsavedChanges(tr: Trackers): (r: bool)
    ensures r <==> exists k :: k in tr.rawUpdate
  {
    |tr.rawUpdate| > 0
  }

  // ---------------------------------------------------------------------------
  // Lemmas about the fold
  // ---------------------------------------------------------------------------

  lemma StripAllKeepsStock(m: Depot)
    ensures StripAll(m).Keys == m.Keys
    ensures forall k :: StockOf(StripAll(m), k) == StockOf(m, k)
    ensures AllBare(StripAll(m))
    ensures WellKeyed(m) ==> WellKeyed(StripAll(m))
  {
  }

  /** The batch has an effective change exactly when some item differs from the stock it started from. */
  lemma {:induction false} FoldChanged(rule: SnapshotRule, f: Fold, items: seq<DepotItem>)
    ensures FoldItems(rule, f, items).changed <==>
      f.changed || exists i | 0 <= i < |items| :: items[i].stock != StockOf(f.copy, items[i].materialId)
    ensures (forall i | 0 <= i < |items| :: items[i].stock == StockOf(f.copy, items[i].materialId)) ==>
      FoldItems(rule, f, items) == f
    decreases |items|
  {
    if |items| > 0 {
      var g := Step(rule, f, items[0]);
      var rest := items[1..];
      FoldChanged(rule, g, rest);
      assert forall i | 0 <= i < |rest| :: rest[i] == items[i + 1];
      if items[0].stock == StockOf(f.copy, items[0].materialId) {
        assert g == f;
        assert (exists i | 0 <= i < |items| :: items[i].stock != StockOf(f.copy, items[i].materialId)) ==>
          exists i | 0 <= i < |rest| :: rest[i].stock != StockOf(f.copy, rest[i].materialId);
      } else {
        assert g.changed;
      }
    }
  }

  /** How `Keeps` splits over the first item of a batch. */
  lemma KeepsCons(items: seq<DepotItem>, k: string, stock: int)
    requires |items| > 0
    ensures Keeps(items, k, stock) <==>
      (items[0].materialId == k ==> items[0].stock == stock) && Keeps(items[1..], k, stock)
  {
    var rest := items[1..];
    assert forall i | 0 <= i < |rest| :: rest[i] == items[i + 1];
  }

  /** A key all of whose items repeat its current stock is left exactly as it was. */
  lemma {:induction false} FoldUntouched(rule: SnapshotRule, f: Fold, items: seq<DepotItem>, k: string)
    requires Keeps(items, k, StockOf(f.copy, k))
    ensures SameStateAt(View(f), View(FoldItems(rule, f, items)), k)
    decreases |items|
  {
    if |items| > 0 {
      KeepsCons(items, k, StockOf(f.copy, k));
      var g := Step(rule, f, items[0]);
      assert SameStateAt(View(f), View(g), k);
      FoldUntouched(rule, g, items[1..], k);
    }
  }

  /** Once a key is tracked against its baseline, later items keep it so. */
  lemma {:induction false} FoldKeepsTracked(rule: SnapshotRule, f: Fold, items: seq<DepotItem>, k: string)
    requires Tracked(View(f), k)
    ensures Tracked(View(FoldItems(rule, f, items)), k)
    decreases |items|
  {
    if |items| > 0 {
      var g := Step(rule, f, items[0]);
      assert Tracked(View(g), k);
      FoldKeepsTracked(rule, g, items[1..], k);
    }
  }

  /** A key with an effective change ends tracked, with a bare depot record. */
  lemma {:induction false} FoldTracks(rule: SnapshotRule, f: Fold, items: seq<DepotItem>, k: string)
    requires !Keeps(items, k, StockOf(f.copy, k))
    ensures var r := FoldItems(rule, f, items);
      Tracked(View(r), k) && k in r.copy && r.copy[k] == Bare(k, StockOf(r.copy, k))
    decreases |items|
  {
    KeepsCons(items, k, StockOf(f.copy, k));
    var g := Step(rule, f, items[0]);
    var rest := items[1..];
    if items[0].materialId == k && items[0].stock != StockOf(f.copy, k) {
      assert Tracked(View(g), k);
      FoldKeepsTracked(rule, g, rest, k);
      if Keeps(rest, k, StockOf(g.copy, k)) {
        FoldUntouched(rule, g, rest, k);
      } else {
        FoldTracks(rule, g, rest, k);
      }
    } else {
      assert SameStateAt(View(f), View(g), k);
      FoldTracks(rule, g, rest, k);
    }
  }

  /** The first effective change of a key eligible for a snapshot records its pre-change record. */
  lemma {:induction false} FoldSnapshotsFirst(rule: SnapshotRule, f: Fold, items: seq<DepotItem>, k: string)
    requires TakesSnapshot(rule, f, k) && !Keeps(items, k, StockOf(f.copy, k))
    ensures k in FoldItems(rule, f, items).og && FoldItems(rule, f, items).og[k] == f.copy[k]
    decreases |items|
  {
    KeepsCons(items, k, StockOf(f.copy, k));
    var g := Step(rule, f, items[0]);
    if items[0].materialId == k && items[0].stock != StockOf(f.copy, k) {
    } else {
      assert SameStateAt(View(f), View(g), k);
      FoldSnapshotsFirst(rule, g, items[1..], k);
    }
  }

  /** The last item naming a key sets its stock (duplicates apply in order). */
  lemma {:induction false} FoldLastWins(rule: SnapshotRule, f: Fold, items: seq<DepotItem>, k: string, i: int)
    requires IsLast(items, i, k)
    ensures StockOf(FoldItems(rule, f, items).copy, k) == items[i].stock
    decreases |items|
  {
    var g := Step(rule, f, items[0]);
    var rest := items[1..];
    if i == 0 {
      assert Keeps(rest, k, StockOf(g.copy, k));
      FoldUntouched(rule, g, rest, k);
    } else {
      assert IsLast(rest, i - 1, k);
      FoldLastWins(rule, g, rest, k, i - 1);
    }
  }

  /** Everything the fold does to one key `k`, gathered from the lemmas above. */
  lemma FoldAtKey(rule: SnapshotRule, f: Fold, items: seq<DepotItem>, k: string)
    ensures Keeps(items, k, StockOf(f.copy, k)) ==> SameStateAt(View(f), View(FoldItems(rule, f, items)), k)
    ensures !Keeps(items, k, StockOf(f.copy, k)) ==>
      var r := FoldItems(rule, f, items);
      Tracked(View(r), k) && k in r.copy && r.copy[k] == Bare(k, StockOf(r.copy, k))
    ensures k in f.og ==> k in FoldItems(rule, f, items).og && FoldItems(rule, f, items).og[k] == f.og[k]
    ensures TakesSnapshot(rule, f, k) && !Keeps(items, k, StockOf(f.copy, k)) ==>
      k in FoldItems(rule, f, items).og && FoldItems(rule, f, items).og[k] == f.copy[k]
    ensures k in f.copy ==> k in FoldItems(rule, f, items).copy
    ensures forall i | IsLast(items, i, k) :: StockOf(FoldItems(rule, f, items).copy, k) == items[i].stock
  {
    if Keeps(items, k, StockOf(f.copy, k)) {
      FoldUntouched(rule, f, items, k);
    } else {
      FoldTracks(rule, f, items, k);
      if TakesSnapshot(rule, f, k) {
        FoldSnapshotsFirst(rule, f, items, k);
      }
    }
    forall i | IsLast(items, i, k)
      ensures StockOf(FoldItems(rule, f, items).copy, k) == items[i].stock
    {
      FoldLastWins(rule, f, items, k, i);
    }
  }

  /**
   * Under `DirtyAware`, a key whose baseline is 0 keeps a baseline of 0: any
   * snapshot it acquires records stock 0.
   */
  predicate ZeroBaseline(f: Fold, k: string) {
    && (k in f.og ==> f.og[k].stock == 0)
    && (k !in f.og && k !in f.raw ==> StockOf(f.copy, k) == 0)
  }

  lemma {:induction false} FoldKeepsZeroBaseline(f: Fold, items: seq<DepotItem>, k: string)
    requires ZeroBaseline(f, k)
    ensures ZeroBaseline(FoldItems(DirtyAware, f, items), k)
    decreases |items|
  {
    if |items| > 0 {
      FoldKeepsZeroBaseline(Step(DirtyAware, f, items[0]), items[1..], k);
    }
  }

  // ---------------------------------------------------------------------------
  // Lemmas about putDepot
  // ---------------------------------------------------------------------------

  /**
   * A batch whose every item repeats the current stock (absent keys count as
   * 0) is a no-op: same depot, same trackers, no sync. Any other batch
   * schedules a sync.
   */
  lemma PutNoOpIff(rule: SnapshotRule, s: State, items: seq<DepotItem>, immediate: bool)
    ensures (forall i | 0 <= i < |items| :: items[i].stock == StockOf(s.depot, items[i].materialId)) <==>
      Put(rule, s, items, immediate) == PutResult(s, NoSync)
  {
    StripAllKeepsStock(s.depot);
    FoldChanged(rule, Start(s), items);
  }

  /**
   * After an effective batch every depot record is bare, no key is removed,
   * a new key is one the batch names, a key the batch does not name keeps its
   * record up to `user_id`, and a named key takes the stock of its last item.
   */
  lemma PutShape(rule: SnapshotRule, s: State, items: seq<DepotItem>, immediate: bool)
    ensures var r := Put(rule, s, items, immediate);
      r.sync != NoSync ==> AllBare(r.state.depot)
    ensures s.depot.Keys <= Put(rule, s, items, immediate).state.depot.Keys
    ensures forall k | k in Put(rule, s, items, immediate).state.depot && k !in s.depot :: Mentions(items, k)
    ensures forall k | k in s.depot && !Mentions(items, k) ::
      Strip(Put(rule, s, items, immediate).state.depot[k]) == Strip(s.depot[k])
    ensures forall k, i | IsLast(items, i, k) :: StockOf(Put(rule, s, items, immediate).state.depot, k) == items[i].stock
  {
    var f0 := Start(s);
    var f := FoldItems(rule, f0, items);
    var r := Put(rule, s, items, immediate);
    StripAllKeepsStock(s.depot);
    forall k
      ensures k in s.depot ==> k in r.state.depot
      ensures k in r.state.depot && k !in s.depot ==> Mentions(items, k)
      ensures k in s.depot && !Mentions(items, k) ==> Strip(r.state.depot[k]) == Strip(s.depot[k])
      ensures forall i | IsLast(items, i, k) :: StockOf(r.state.depot, k) == items[i].stock
      ensures r.sync != NoSync && k in r.state.depot ==> r.state.depot[k].userId == None
    {
      FoldAtKey(rule, f0, items, k);
      if !Mentions(items, k) {
        assert Keeps(items, k, StockOf(f0.copy, k));
      }
      if r.sync == NoSync {
        FoldChanged(rule, f0, items);
        forall i | IsLast(items, i, k)
          ensures StockOf(r.state.depot, k) == items[i].stock
        {
          assert items[i].stock == StockOf(s.depot, items[i].materialId);
        }
      }
    }
  }

  /**
   * Snapshots: an existing `ogValues` entry is never overwritten, and the first
   * change of a key that exists and has none records its pre-change record
   * without `user_id` (under `DirtyAware`, only when the key is not already
   * pending). Under `DirtyAware` a key absent from the depot and from both
   * trackers never acquires a baseline other than 0.
   */
  lemma PutSnapshots(rule: SnapshotRule, s: State, items: seq<DepotItem>, immediate: bool, k: string)
    ensures var og := s.trackers.ogValues; var og' := Put(rule, s, items, immediate).state.trackers.ogValues;
      k in og ==> k in og' && og'[k] == og[k]
    ensures var og := s.trackers.ogValues; var og' := Put(rule, s, items, immediate).state.trackers.ogValues;
      k in s.depot && k !in og && (rule == DirtyAware ==> k !in s.trackers.rawUpdate)
      && !Keeps(items, k, StockOf(s.depot, k))
      ==> k in og' && og'[k] == Strip(s.depot[k])
    ensures var og' := Put(rule, s, items, immediate).state.trackers.ogValues;
      (rule == DirtyAware && k !in s.depot && k !in s.trackers.ogValues && k !in s.trackers.rawUpdate
       && k in og') ==> og'[k].stock == 0
  {
    var f0 := Start(s);
    StripAllKeepsStock(s.depot);
    FoldAtKey(rule, f0, items, k);
    FoldChanged(rule, f0, items);
    if rule == DirtyAware && k !in s.depot && k !in s.trackers.ogValues && k !in s.trackers.rawUpdate {
      FoldKeepsZeroBaseline(f0, items, k);
    }
  }

  /**
   * After `put`, a key with an effective change is pending exactly when its
   * new stock differs from its baseline, and its pending entry is the bare new
   * record; a key whose items all repeat its stock keeps its stock and both
   * tracker entries.
   */
  lemma PutTracks(rule: SnapshotRule, s: State, items: seq<DepotItem>, immediate: bool, k: string)
    ensures !Keeps(items, k, StockOf(s.depot, k)) ==> Tracked(Put(rule, s, items, immediate).state, k)
    ensures var s' := Put(rule, s, items, immediate).state;
      Keeps(items, k, StockOf(s.depot, k)) ==>
        && StockOf(s'.depot, k) == StockOf(s.depot, k)
        && SameAt(s.trackers.rawUpdate, s'.trackers.rawUpdate, k)
        && SameAt(s.trackers.ogValues, s'.trackers.ogValues, k)
  {
    var f0 := Start(s);
    StripAllKeepsStock(s.depot);
    FoldAtKey(rule, f0, items, k);
    FoldChanged(rule, f0, items);
  }

  // ---------------------------------------------------------------------------
  // The tracker invariant against a remote baseline
  // ---------------------------------------------------------------------------

  /**
   * The trackers describe exactly how the depot differs from `base`, the
   * stock the remote store holds: a key is pending iff its stock differs from
   * `base`, a pending entry is the bare current record, and every snapshot
   * and every pending key's baseline is the `base` stock.
   */
  ghost predicate TrackerInv(base: Depot, s: State) {
    var raw := s.trackers.rawUpdate;
    var og := s.trackers.ogValues;
    && WellKeyed(s.depot)
    && raw.Keys <= s.depot.Keys
    && (forall k :: k in raw <==> StockOf(s.depot, k) != StockOf(base, k))
    && (forall k | k in raw :: raw[k] == Bare(k, StockOf(s.depot, k)))
    && (forall k | k in raw || k in og :: StockOf(og, k) == StockOf(base, k))
  }

  lemma StepKeepsTrackerInv(base: Depot, f: Fold, item: DepotItem)
    requires TrackerInv(base, View(f))
    ensures TrackerInv(base, View(Step(DirtyAware, f, item)))
  {
    var id := item.materialId;
    if StockOf(f.copy, id) != item.stock {
      var g := Step(DirtyAware, f, item);
      assert StockOf(g.og, id) == StockOf(base, id);
      assert forall k | k != id :: SameStateAt(View(f), View(g), k);
    }
  }

  lemma {:induction false} FoldKeepsTrackerInv(base: Depot, f: Fold, items: seq<DepotItem>)
    requires TrackerInv(base, View(f))
    ensures TrackerInv(base, View(FoldItems(DirtyAware, f, items)))
    decreases |items|
  {
    if |items| > 0 {
      StepKeepsTrackerInv(base, f, items[0]);
      FoldKeepsTrackerInv(base, Step(DirtyAware, f, items[0]), items[1..]);
    }
  }

  /** Under `DirtyAware`, `put` keeps the trackers an exact record of how the depot differs from the remote stock. */
  lemma PutKeepsTrackerInv(base: Depot, s: State, items: seq<DepotItem>, immediate: bool)
    requires TrackerInv(base, s)
    ensures TrackerInv(base, Put(DirtyAware, s, items, immediate).state)
  {
    StripAllKeepsStock(s.depot);
    assert TrackerInv(base, View(Start(s)));
    FoldKeepsTrackerInv(base, Start(s), items);
  }
}

=== FILE: filter.dfy ===
/**
 * The roster filter of `useFilter`: ten categories of selected values, the
 * toggle, clear and initialise operations on them, and the predicate that
 * decides whether an operator is shown.
 *
 * `matchOperatorName` is not part of this model; it is passed in as an
 * uninterpreted function.
 */
module RosterFilter {
  import opened Wrappers

  /** `string | boolean | number`; the numbers used are integer levels and ranks. */
  datatype Value = Str(s: string) | Bool(b: bool) | Num(n: int)

  datatype Category =
    | Class | Branch | Owned | Elite | Rarity | Cn | ModuleCn | Mastery | SkillLevel | ModuleLevel

  datatype Filters = Filters(
    classes: set<Value>,
    branches: set<Value>,
    owned: set<Value>,
    elite: set<Value>,
    rarity: set<Value>,
    cn: set<Value>,
    moduleCn: set<Value>,
    mastery: set<Value>,
    skillLevel: set<Value>,
    moduleLevel: set<Value>)

  function Get(f: Filters, c: Category): set<Value> {
    match c
    case Class => f.classes
    case Branch => f.branches
    case Owned => f.owned
    case Elite => f.elite
    case Rarity => f.rarity
    case Cn => f.cn
    case ModuleCn => f.moduleCn
    case Mastery => f.mastery
    case SkillLevel => f.skillLevel
    case ModuleLevel => f.moduleLevel
  }

  /** `f` with category `c` replaced by `s`. */
  function With(f: Filters, c: Category, s: set<Value>): (r: Filters)
    ensures Get(r, c) == s
    ensures forall d | d != c :: Get(r, d) == Get(f, d)
  {
    match c
    case Class => f.(classes := s)
    case Branch => f.(branches := s)
    case Owned => f.(owned := s)
    case Elite => f.(elite := s)
    case Rarity => f.(rarity := s)
    case Cn => f.(cn := s)
    case ModuleCn => f.(moduleCn := s)
    case Mastery => f.(mastery := s)
    case SkillLevel => f.(skillLevel := s)
    case ModuleLevel => f.(moduleLevel := s)
  }

  /** An entry of `moduleData`. */
  datatype ModuleInfo = ModuleInfo(isCnOnly: bool)

  /** The fields of an operator the filter reads; `None` is a missing field. */
  datatype OpInfo = OpInfo(
    name: string,
    className: string,
    branch: string,
    potential: int,
    elite: int,
    rarity: int,
    isCnOnly: bool,
    moduleData: Option<seq<ModuleInfo>>,
    skillLevel: int,
    masteries: Option<seq<int>>,
    modules: Option<map<string, int>>)

  // ---------------------------------------------------------------------------
  // Per-category checks
  // ---------------------------------------------------------------------------

  predicate CheckClasses(op: OpInfo, vals: set<Value>) { Str(op.className) in vals }

  predicate CheckBranches(op: OpInfo, vals: set<Value>) { Str(op.branch) in vals }

  /** `value.has(op.potential > 0)`: an operator with potential above 0 is shown under "owned", any other under "not owned". */
  function CheckOwned(op: OpInfo, vals: set<Value>): (r: bool)
    ensures r <==> (if op.potential > 0 then Bool(true) in vals else Bool(false) in vals)
  {
    Bool(op.potential > 0) in vals
  }

  predicate CheckElite(op: OpInfo, vals: set<Value>) { Num(op.elite) in vals }

  predicate CheckRarity(op: OpInfo, vals: set<Value>) { Num(op.rarity) in vals }

  predicate CheckCnOnly(op: OpInfo, vals: set<Value>) { Bool(op.isCnOnly) in vals }

  /**
   * `op.moduleData && op.moduleData.some(m => value.has(m.isCnOnly))`: fails
   * without module data; otherwise passes when some module's CN-only flag is
   * selected.
   */
  function CheckModuleCnOnly(op: OpInfo, vals: set<Value>): (r: bool)
    ensures op.moduleData.None? ==> !r
    ensures op.moduleData.Some? ==>
      var md := op.moduleData.value;
      (r <==>
        || (Bool(true) in vals && exists i | 0 <= i < |md| :: md[i].isCnOnly)
        || (Bool(false) in vals && exists i | 0 <= i < |md| :: !md[i].isCnOnly))
  {
    && op.moduleData.Some?
    && exists i | 0 <= i < |op.moduleData.value| :: Bool(op.moduleData.value[i].isCnOnly) in vals
  }

  predicate CheckSkillLevel(op: OpInfo, vals: set<Value>) { Num(op.skillLevel) in vals }

  /** A selected 0 asks that every level be 0; a selected `v` other than 0 asks that some level equal `v`. */
  predicate LevelsMatch(levels: set<int>, vals: set<Value>) {
    exists v | v in vals ::
      || (v == Num(0) && forall m | m in levels :: m == 0)
      || (v != Num(0) && exists m | m in levels :: Num(m) == v)
  }

  /**
   * `checkMastery`: a missing list fails; otherwise a selected 0 passes an
   * operator whose masteries are all 0 (an empty list included) and a
   * selected value other than 0 passes one with some mastery equal to it.
   */
  function CheckMastery(op: OpInfo, vals: set<Value>): (r: bool)
    ensures op.masteries.None? ==> !r
    ensures op.masteries.Some? ==>
      var ms := op.masteries.value;
      (r <==>
        || (Num(0) in vals && forall m | m in ms :: m == 0)
        || (exists m | m in ms :: m != 0 && Num(m) in vals))
  {
    if op.masteries.None? then false
    else
      SeqLevels(op.masteries.value, vals);
      LevelsMatch(set m | m in op.masteries.value :: m, vals)
  }

  /** `checkModuleLevel`: the same rule over the levels in `modules`; a missing map fails. */
  function CheckModuleLevel(op: OpInfo, vals: set<Value>): (r: bool)
    ensures op.modules.None? ==> !r
    ensures op.modules.Some? ==>
      var mods := op.modules.value;
      (r <==>
        || (Num(0) in vals && forall k | k in mods :: mods[k] == 0)
        || (exists k | k in mods :: mods[k] != 0 && Num(mods[k]) in vals))
  {
    if op.modules.None? then false
    else
      MapLevels(op.modules.value, vals);
      LevelsMatch(op.modules.value.Values, vals)
  }

  /**
   * The check of category `c`. Every check asks for some selected value, so
   * an empty selection passes no operator; that is why `filterFunction` skips
   * empty categories.
   */
  function Check(c: Category, op: OpInfo, vals: set<Value>): (r: bool)
    ensures vals == {} ==> !r
  {
    match c
    case Class => CheckClasses(op, vals)
    case Branch => CheckBranches(op, vals)
    case Owned => CheckOwned(op, vals)
    case Elite => CheckElite(op, vals)
    case Rarity => CheckRarity(op, vals)
    case Cn => CheckCnOnly(op, vals)
    case ModuleCn => CheckModuleCnOnly(op, vals)
    case Mastery => CheckMastery(op, vals)
    case SkillLevel => CheckSkillLevel(op, vals)
    case ModuleLevel => CheckModuleLevel(op, vals)
  }

  // ---------------------------------------------------------------------------
  // The hook's operations
  // ---------------------------------------------------------------------------

  /** `init[c] ?? new Set()` */
  function Supplied(init: map<Category, set<Value>>, c: Category): set<Value> {
    if c in init then init[c] else {}
  }

  /** The initial filters: each category supplied in `init`, the empty set for the others. */
  function Init(init: map<Category, set<Value>>): (r: Filters)
    ensures forall c :: Get(r, c) == Supplied(init, c)
  {
    Filters(
      Supplied(init, Class), Supplied(init, Branch), Supplied(init, Owned), Supplied(init, Elite),
      Supplied(init, Rarity), Supplied(init, Cn), Supplied(init, ModuleCn), Supplied(init, Mastery),
      Supplied(init, SkillLevel), Supplied(init, ModuleLevel))
  }

  /** `clearFilters`: every category empty. */
  function Clear(): (r: Filters)
    ensures forall c :: Get(r, c) == {}
  {
    Filters({}, {}, {}, {}, {}, {}, {}, {}, {}, {})
  }

  /** `toggleFilter(c, v)`: `v` changes membership in category `c`; nothing else changes. */
  function Toggle(f: Filters, c: Category, v: Value): (r: Filters)
    ensures v in Get(r, c) <==> v !in Get(f, c)
    ensures forall u | u != v :: u in Get(r, c) <==> u in Get(f, c)
    ensures forall d | d != c :: Get(r, d) == Get(f, d)
  {
    var s := Get(f, c);
    With(f, c, if v in s then s - {v} else s + {v})
  }

  /**
   * `filterFunction`: the source's chain of early returns, one per
   * category in declaration order, then the name match.
   */
  function FilterFunction(f: Filters, search: string, matchName: (string, string) -> bool, op: OpInfo): (r: bool)
    ensures r <==> Passes(f, op) && matchName(op.name, search)
  {
    PassesByCategory(f, op);
    if |f.classes| > 0 && !CheckClasses(op, f.classes) then false
    else if |f.branches| > 0 && !CheckBranches(op, f.branches) then false
    else if |f.owned| > 0 && !CheckOwned(op, f.owned) then false
    else if |f.elite| > 0 && !CheckElite(op, f.elite) then false
    else if |f.rarity| > 0 && !CheckRarity(op, f.rarity) then false
    else if |f.cn| > 0 && !CheckCnOnly(op, f.cn) then false
    else if |f.moduleCn| > 0 && !CheckModuleCnOnly(op, f.moduleCn) then false
    else if |f.mastery| > 0 && !CheckMastery(op, f.mastery) then false
    else if |f.skillLevel| > 0 && !CheckSkillLevel(op, f.skillLevel) then false
    else if |f.moduleLevel| > 0 && !CheckModuleLevel(op, f.moduleLevel) then false
    else matchName(op.name, search)
  }

  /** Reference definition: every non-empty category's check passes. */
  ghost predicate Passes(f: Filters, op: OpInfo) {
    forall c :: Get(f, c) == {} || Check(c, op, Get(f, c))
  }

  // ---------------------------------------------------------------------------
  // Lemmas
  // ---------------------------------------------------------------------------

  /** Every non-empty category's check passes, in `filterFunction`'s order. */
  predicate AllCategoriesPass(f: Filters, op: OpInfo) {
    && (|f.classes| == 0 || CheckClasses(op, f.classes))
    && (|f.branches| == 0 || CheckBranches(op, f.branches))
    && (|f.owned| == 0 || CheckOwned(op, f.owned))
    && (|f.elite| == 0 || CheckElite(op, f.elite))
    && (|f.rarity| == 0 || CheckRarity(op, f.rarity))
    && (|f.cn| == 0 || CheckCnOnly(op, f.cn))
    && (|f.moduleCn| == 0 || CheckModuleCnOnly(op, f.moduleCn))
    && (|f.mastery| == 0 || CheckMastery(op, f.mastery))
    && (|f.skillLevel| == 0 || CheckSkillLevel(op, f.skillLevel))
    && (|f.moduleLevel| == 0 || CheckModuleLevel(op, f.moduleLevel))
  }

  /** The reference conjunction spelled out category by category, in `filterFunction`'s order. */
  lemma PassesByCategory(f: Filters, op: OpInfo)
    ensures Passes(f, op) <==> AllCategoriesPass(f, op)
  {
    if Passes(f, op) {
      PassesEachCategory(f, op);
    } else {
      FailsSomeCategory(f, op);
    }
  }

  lemma PassesEachCategory(f: Filters, op: OpInfo)
    requires Passes(f, op)
    ensures AllCategoriesPass(f, op)
  {
    assert |f.classes| == 0 || CheckClasses(op, f.classes) by {
      assert Get(f, Class) == {} || Check(Class, op, Get(f, Class));
    }
    assert |f.branches| == 0 || CheckBranches(op, f.branches) by {
      assert Get(f, Branch) == {} || Check(Branch, op, Get(f, Branch));
    }
    assert |f.owned| == 0 || CheckOwned(op, f.owned) by {
      assert Get(f, Owned) == {} || Check(Owned, op, Get(f, Owned));
    }
    assert |f.elite| == 0 || CheckElite(op, f.elite) by {
      assert Get(f, Elite) == {} || Check(Elite, op, Get(f, Elite));
    }
    assert |f.rarity| == 0 || CheckRarity(op, f.rarity) by {
      assert Get(f, Rarity) == {} || Check(Rarity, op, Get(f, Rarity));
    }
    assert |f.cn| == 0 || CheckCnOnly(op, f.cn) by {
      assert Get(f, Cn) == {} || Check(Cn, op, Get(f, Cn));
    }
    assert |f.moduleCn| == 0 || CheckModuleCnOnly(op, f.moduleCn) by {
      assert Get(f, ModuleCn) == {} || Check(ModuleCn, op, Get(f, ModuleCn));
    }
    assert |f.mastery| == 0 || CheckMastery(op, f.mastery) by {
      assert Get(f, Mastery) == {} || Check(Mastery, op, Get(f, Mastery));
    }
    assert |f.skillLevel| == 0 || CheckSkillLevel(op, f.skillLevel) by {
      assert Get(f, SkillLevel) == {} || Check(SkillLevel, op, Get(f, SkillLevel));
    }
    assert |f.moduleLevel| == 0 || CheckModuleLevel(op, f.moduleLevel) by {
      assert Get(f, ModuleLevel) == {} || Check(ModuleLevel, op, Get(f, ModuleLevel));
    }
  }

  lemma FailsSomeCategory(f: Filters, op: OpInfo)
    requires !Passes(f, op)
    ensures !AllCategoriesPass(f, op)
  {
    var c :| Get(f, c) != {} && !Check(c, op, Get(f, c));
    match c
    case Class =>
    case Branch =>
    case Owned =>
    case Elite =>
    case Rarity =>
    case Cn =>
    case ModuleCn =>
    case Mastery =>
    case SkillLevel =>
    case ModuleLevel =>
  }

  /** With every category empty, only the name match decides; `Clear` and an empty `Init` are that state. */
  lemma EmptyFiltersMatchNameOnly(search: string, matchName: (string, string) -> bool, op: OpInfo)
    ensures FilterFunction(Clear(), search, matchName, op) == matchName(op.name, search)
    ensures Init(map[]) == Clear()
  {
  }

  /** Toggling the same value twice restores the filters. */
  lemma ToggleTwice(f: Filters, c: Category, v: Value)
    ensures Toggle(Toggle(f, c, v), c, v) == f
  {
    var g := Toggle(Toggle(f, c, v), c, v);
    assert Get(g, c) == Get(f, c);
    match c
    case Class =>
    case Branch =>
    case Owned =>
    case Elite =>
    case Rarity =>
    case Cn =>
    case ModuleCn =>
    case Mastery =>
    case SkillLevel =>
    case ModuleLevel =>
  }

  /**
   * The level rule seen from the operator's side: it passes when 0 is
   * selected and every level is 0 (an empty list included), or when some
   * non-zero level of the operator is selected.
   */
  lemma LevelsMatchByLevels(levels: set<int>, vals: set<Value>)
    ensures LevelsMatch(levels, vals) <==>
      || (Num(0) in vals && forall m | m in levels :: m == 0)
      || (exists m | m in levels :: m != 0 && Num(m) in vals)
  {
    if LevelsMatch(levels, vals) {
      var v :| v in vals &&
        ((v == Num(0) && forall m | m in levels :: m == 0) || (v != Num(0) && exists m | m in levels :: Num(m) == v));
      if v != Num(0) {
        var m :| m in levels && Num(m) == v;
        assert m != 0 && Num(m) in vals;
      }
    }
    if exists m | m in levels :: m != 0 && Num(m) in vals {
      var m :| m in levels && m != 0 && Num(m) in vals;
      assert Num(m) != Num(0) && exists m' | m' in levels :: Num(m') == Num(m);
    }
  }

  /** The level rule over a list of masteries, read through the set of its elements. */
  lemma SeqLevels(ms: seq<int>, vals: set<Value>)
    ensures LevelsMatch(set m | m in ms :: m, vals) <==>
      || (Num(0) in vals && forall m | m in ms :: m == 0)
      || (exists m | m in ms :: m != 0 && Num(m) in vals)
  {
    var levels := set m | m in ms :: m;
    assert forall m :: m in levels <==> m in ms;
    LevelsMatchByLevels(levels, vals);
  }

  /** The level rule over the values of a module map, read through its keys. */
  lemma MapLevels(mods: map<string, int>, vals: set<Value>)
    ensures LevelsMatch(mods.Values, vals) <==>
      || (Num(0) in vals && forall k | k in mods :: mods[k] == 0)
      || (exists k | k in mods :: mods[k] != 0 && Num(mods[k]) in vals)
  {
    LevelsMatchByLevels(mods.Values, vals);
    assert forall k | k in mods :: mods[k] in mods.Values;
    if forall k | k in mods :: mods[k] == 0 {
      forall m | m in mods.Values
        ensures m == 0
      {
        var k :| k in mods && mods[k] == m;
      }
    }
    if exists m | m in mods.Values :: m != 0 && Num(m) in vals {
      var m :| m in mods.Values && m != 0 && Num(m) in vals;
      var k :| k in mods && mods[k] == m;
    }
  }

  /** Selecting more values in a category never hides an operator that passed it. */
  lemma CheckMonotone(c: Category, op: OpInfo, vals: set<Value>, more: set<Value>)
    requires vals <= more
    ensures Check(c, op, vals) ==> Check(c, op, more)
  {
    if Check(c, op, vals) && (c == Mastery || c == ModuleLevel) {
      var levels := if c == Mastery then set m | m in op.masteries.value :: m else op.modules.value.Values;
      var v :| v in vals &&
        ((v == Num(0) && forall m | m in levels :: m == 0) || (v != Num(0) && exists m | m in levels :: Num(m) == v));
      assert v in more;
    }
  }
}

=== FILE: session.dfy ===
/**
 * The sync engine of `useDepot` as an event machine over three things: the
 * hook's state, the argument of the one pending call of the debounced sync,
 * and the rows the remote store holds for the signed-in user.
 *
 * Time is not modelled: `Fire` is the moment the debounce window elapses and
 * the pending call runs. Every remote call is atomic, its success an input
 * flag, and the user is signed in throughout.
 */
module DepotSession {
  import opened Wrappers
  import opened Depot
  import opened DepotLoader

  /**
   * What a direct sync (an immediate `put`, or a reset) does to a pending
   * debounced call: the source leaves it armed; the corrected engine cancels it.
   */
  datatype DebounceRule = KeepPending | CancelPending

  datatype Policy = Policy(snapshot: SnapshotRule, debounce: DebounceRule)

  /** The hook as written. */
  const Source := Policy(AsWritten, KeepPending)

  /** The hook with both corrections listed under the findings. */
  const Corrected := Policy(DirtyAware, CancelPending)

  datatype Session = Session(state: State, pending: Option<Depot>, remote: Depot)

  datatype Event =
    | Edit(items: seq<DepotItem>, immediate: bool, ok: bool)
    | Fire(ok: bool)
    | Refresh
    | ResetAll(ok: bool)

  /** The remote upsert: each record replaces the row of its material. */
  function Upsert(remote: Depot, rows: Depot): (r: Depot)
    ensures r.Keys == remote.Keys + rows.Keys
    ensures forall k | k in rows :: r[k] == rows[k]
    ensures forall k | k in remote && k !in rows :: r[k] == remote[k]
  {
    remote + rows
  }

  /** `syncDepotToDB(Object.values(payload))`, whose upsert succeeds when `ok`. */
  function Flush(st: State, pending: Option<Depot>, remote: Depot, payload: Depot, ok: bool): (r: Session)
    ensures r.state.depot == st.depot && r.pending == pending
    ensures Writes(payload, true, ok) ==> r.remote == Upsert(remote, payload) && r.state.trackers == Clean
    ensures !Writes(payload, true, ok) ==> r.remote == remote && r.state.trackers == st.trackers
  {
    var remote' := if Writes(payload, true, ok) then Upsert(remote, payload) else remote;
    Session(State(st.depot, SyncToDb(st.trackers, payload, true, ok)), pending, remote')
  }

  function AfterDirectSync(p: Policy, pending: Option<Depot>): Option<Depot> {
    if p.debounce == CancelPending then None else pending
  }

  /**
   * One event. `Edit` is `putDepot`: a debounced sync replaces the pending
   * call's argument, an immediate one runs at once. `Fire` runs the pending
   * call. `Refresh` is `refreshDebounce`, re-arming the debounce with the
   * current `rawUpdate` when there is one. `ResetAll` is `resetDepot`.
   */
  function Apply(p: Policy, s: Session, e: Event): (r: Session)
    ensures e.Edit? && !e.immediate ==> r.remote == s.remote
    ensures e.Edit? ==>
      var put := Put(p.snapshot, s.state, e.items, e.immediate);
      && (put.sync == NoSync ==> r == s)
      && (put.sync != NoSync ==> r.state.depot == put.state.depot)
      && (put.sync.SyncDebounced? ==> r.state == put.state && r.pending == Some(r.state.trackers.rawUpdate))
      && (put.sync.SyncNow? ==> r.pending == (if p.debounce == KeepPending then s.pending else None))
      && (put.sync.SyncNow? && Writes(put.state.trackers.rawUpdate, true, e.ok) ==>
            r.remote == Upsert(s.remote, put.state.trackers.rawUpdate) && r.state.trackers == Clean)
      && (put.sync.SyncNow? && !Writes(put.state.trackers.rawUpdate, true, e.ok) ==>
            r.remote == s.remote && r.state == put.state)
    ensures e.Fire? && s.pending.Some? && Writes(s.pending.value, true, e.ok) ==>
      r.remote == Upsert(s.remote, s.pending.value) && r.state.trackers == Clean
    ensures e.Fire? && !(s.pending.Some? && Writes(s.pending.value, true, e.ok)) ==>
      r.remote == s.remote && r.state == s.state
    ensures e.Fire? ==> r.pending.None? && r.state.depot == s.state.depot
    ensures e.Refresh? ==> r.state == s.state && r.remote == s.remote
    ensures e.Refresh? && HasUnsavedChanges(s.state.trackers) ==> r.pending == Some(s.state.trackers.rawUpdate)
    ensures e.Refresh? && !HasUnsavedChanges(s.state.trackers) ==> r == s
    ensures e.ResetAll? ==> r.state.depot.Keys == s.state.depot.Keys && forall k :: StockOf(r.state.depot, k) == 0
    ensures e.ResetAll? && e.ok ==> forall k | k in s.state.depot :: StockOf(r.remote, k) == 0
    ensures e.ResetAll? ==> r.pending == (if p.debounce == KeepPending then s.pending else None)
  {
    match e
    case Edit(items, immediate, ok) =>
      var r := Put(p.snapshot, s.state, items, immediate);
      (match r.sync
       case NoSync => s
       case SyncDebounced(payload) => Session(r.state, Some(payload), s.remote)
       case SyncNow(payload) => Flush(r.state, AfterDirectSync(p, s.pending), s.remote, payload, ok))
    case Fire(ok) =>
      if s.pending.None? then s else Flush(s.state, None, s.remote, s.pending.value, ok)
    case Refresh =>
      if HasUnsavedChanges(s.state.trackers) then s.(pending := Some(s.state.trackers.rawUpdate)) else s
    case ResetAll(ok) =>
      var r := Reset(s.state);
      Flush(r.state, AfterDirectSync(p, s.pending), s.remote, r.sync.payload, ok)
  }

  function Run(p: Policy, s: Session, events: seq<Event>): Session
    decreases |events|
  {
    if |events| == 0 then s else Run(p, Apply(p, s, events[0]), events[1..])
  }

  /** A reset whose upsert fails; the trackers then no longer describe the depot. */
  predicate FailedReset(e: Event) {
    e.ResetAll? && !e.ok
  }

  /** The local depot and the remote store agree on every material's stock. */
  ghost predicate InSync(s: Session) {
    forall k :: StockOf(s.state.depot, k) == StockOf(s.remote, k)
  }

  /**
   * The trackers record exactly how the depot differs from the remote store,
   * and a pending debounced call carries the current `rawUpdate`.
   */
  ghost predicate Inv(s: Session) {
    && TrackerInv(s.remote, s.state)
    && (s.pending.Some? ==> s.pending.value == s.state.trackers.rawUpdate)
  }

  /** Under the invariant, `hasUnsavedChanges` holds exactly when the depot and the remote store disagree. */
  lemma UnsavedIffOutOfSync(s: Session)
    requires Inv(s)
    ensures HasUnsavedChanges(s.state.trackers) <==> !InSync(s)
  {
    var raw := s.state.trackers.rawUpdate;
    if HasUnsavedChanges(s.state.trackers) {
      var k :| k in raw;
      assert StockOf(s.state.depot, k) != StockOf(s.remote, k);
    }
  }

  /** A successful upsert of the whole `rawUpdate` leaves the depot and the store in agreement. */
  lemma FlushPendingKeepsInv(s: Session, ok: bool)
    requires TrackerInv(s.remote, s.state)
    ensures Inv(Flush(s.state, None, s.remote, s.state.trackers.rawUpdate, ok))
  {
    var raw := s.state.trackers.rawUpdate;
    var t := Flush(s.state, None, s.remote, raw, ok);
    if Writes(raw, true, ok) {
      assert forall k :: StockOf(t.state.depot, k) == StockOf(t.remote, k) by {
        forall k
          ensures StockOf(t.state.depot, k) == StockOf(t.remote, k)
        {
          if k in raw {
            assert t.remote[k] == raw[k];
          }
        }
      }
    }
  }

  /** A successful reset leaves every material at stock 0 both locally and remotely. */
  lemma ResetKeepsInv(s: Session, p: Policy)
    requires Inv(s)
    ensures var t := Apply(p, s, ResetAll(true));
      TrackerInv(t.remote, t.state) && InSync(t)
  {
    var t := Apply(p, s, ResetAll(true));
    var zeroed := ResetDepot(s.state.depot);
    if |zeroed| == 0 {
      assert zeroed.Keys == s.state.depot.Keys;
      assert s.state.depot == map[];
      assert zeroed == s.state.depot;
    } else {
      forall k
        ensures StockOf(t.state.depot, k) == StockOf(t.remote, k)
      {
        if k !in zeroed {
          assert k !in s.state.trackers.rawUpdate;
        }
      }
    }
  }

  /**
   * The corrected engine keeps the invariant through every event except a
   * reset whose upsert fails.
   */
  lemma ApplyKeepsInv(s: Session, e: Event)
    requires Inv(s)
    requires !FailedReset(e)
    ensures Inv(Apply(Corrected, s, e))
  {
    match e
    case Edit(items, immediate, ok) =>
      PutKeepsTrackerInv(s.remote, s.state, items, immediate);
      var r := Put(DirtyAware, s.state, items, immediate);
      if r.sync.SyncNow? {
        FlushPendingKeepsInv(Session(r.state, None, s.remote), ok);
      }
    case Fire(ok) =>
      if s.pending.Some? {
        FlushPendingKeepsInv(s, ok);
      }
    case Refresh =>
    case ResetAll(ok) =>
      ResetKeepsInv(s, Corrected);
  }

  /**
   * A successful firing of the pending call under the corrected engine
   * leaves the depot and the store in agreement, with nothing unsaved and
   * nothing pending.
   */
  lemma FireSyncs(s: Session)
    requires Inv(s) && s.pending.Some?
    ensures var t := Apply(Corrected, s, Fire(true));
      Inv(t) && InSync(t) && !HasUnsavedChanges(t.state.trackers) && t.pending.None?
  {
    var t := Apply(Corrected, s, Fire(true));
    FlushPendingKeepsInv(s, true);
    UnsavedIffOutOfSync(t);
  }

  /**
   * An effective immediate edit whose upsert succeeds, under the corrected
   * engine, leaves the depot and the store in agreement, with nothing unsaved
   * and the pending call cancelled.
   */
  lemma ImmediateEditSyncs(s: Session, items: seq<DepotItem>)
    requires Inv(s)
    ensures var t := Apply(Corrected, s, Edit(items, true, true));
      Put(DirtyAware, s.state, items, true).sync != NoSync ==>
        Inv(t) && InSync(t) && !HasUnsavedChanges(t.state.trackers) && t.pending.None?
  {
    var t := Apply(Corrected, s, Edit(items, true, true));
    var r := Put(DirtyAware, s.state, items, true);
    if r.sync != NoSync {
      PutKeepsTrackerInv(s.remote, s.state, items, true);
      FlushPendingKeepsInv(Session(r.state, None, s.remote), true);
      UnsavedIffOutOfSync(t);
    }
  }

  /** Through any run without a failed reset, the corrected engine keeps the invariant. */
  lemma {:induction false} RunKeepsInv(s: Session, events: seq<Event>)
    requires Inv(s)
    requires forall i | 0 <= i < |events| :: !FailedReset(events[i])
    ensures Inv(Run(Corrected, s, events))
    ensures HasUnsavedChanges(Run(Corrected, s, events).state.trackers) <==> !InSync(Run(Corrected, s, events))
    decreases |events|
  {
    if |events| > 0 {
      ApplyKeepsInv(s, events[0]);
      var rest := events[1..];
      assert forall i | 0 <= i < |rest| :: rest[i] == events[i + 1];
      RunKeepsInv(Apply(Corrected, s, events[0]), rest);
    } else {
      UnsavedIffOutOfSync(s);
    }
  }

  // ---------------------------------------------------------------------------
  // Mount: the session right after bootstrap
  // ---------------------------------------------------------------------------

  /** The store holding `rows`: one row per material, a later row for the same material replacing an earlier one. */
  function RowsToMap(rows: seq<DepotItem>): Depot
    decreases |rows|
  {
    if |rows| == 0 then map[]
    else RowsToMap(rows[..|rows| - 1])[rows[|rows| - 1].materialId := rows[|rows| - 1]]
  }

  /** A material has a row in the store exactly when some fetched row names it. */
  lemma {:induction false} RowsToMapHas(rows: seq<DepotItem>, k: string)
    ensures k in RowsToMap(rows) <==> Mentions(rows, k)
    decreases |rows|
  {
    if |rows| > 0 {
      var init := rows[..|rows| - 1];
      var last := rows[|rows| - 1];
      assert RowsToMap(rows) == RowsToMap(init)[last.materialId := last];
      RowsToMapHas(init, k);
      if Mentions(init, k) {
        var i :| 0 <= i < |init| && init[i].materialId == k;
        assert rows[i] == init[i];
      }
      if Mentions(rows, k) && last.materialId != k {
        var i :| 0 <= i < |rows| && rows[i].materialId == k;
        assert init[i] == rows[i];
      }
    }
  }

  /** A material's row in the store is its last fetched row. */
  lemma {:induction false} RowsToMapLast(rows: seq<DepotItem>, k: string, i: int)
    requires IsLast(rows, i, k)
    ensures k in RowsToMap(rows) && RowsToMap(rows)[k] == rows[i]
    decreases |rows|
  {
    var init := rows[..|rows| - 1];
    var last := rows[|rows| - 1];
    assert RowsToMap(rows) == RowsToMap(init)[last.materialId := last];
    if i < |rows| - 1 {
      assert last.materialId != k;
      assert init[i] == rows[i];
      assert IsLast(init, i, k);
      RowsToMapLast(init, k, i);
    }
  }

  /** The rows left in the store after the delete: the whole store, less the orphans when the select returned them. */
  lemma MountStore(rows: seq<DepotItem>, catalog: set<string>, selectOk: bool)
    ensures var orphans := Orphans(if selectOk then rows else [], catalog);
      var deleted := set j | 0 <= j < |orphans| :: orphans[j];
      forall k :: k in RowsToMap(rows) - deleted <==> Mentions(rows, k) && (selectOk ==> k in catalog)
  {
    KnownAndOrphansSplitRows(rows, catalog);
    var orphans := Orphans(if selectOk then rows else [], catalog);
    var deleted := set j | 0 <= j < |orphans| :: orphans[j];
    forall k
      ensures k in RowsToMap(rows) - deleted <==> Mentions(rows, k) && (selectOk ==> k in catalog)
    {
      RowsToMapHas(rows, k);
      if selectOk && Mentions(rows, k) && k !in catalog {
        var i :| 0 <= i < |rows| && rows[i].materialId == k;
        assert k in orphans;
        var j :| 0 <= j < |orphans| && orphans[j] == k;
        assert k in deleted;
      }
      if k in deleted {
        var j :| 0 <= j < |orphans| && orphans[j] == k;
        assert selectOk && k !in catalog;
      }
    }
  }

  /**
   * The session after the fetch effect of a signed-in mount, the store
   * holding `rows`. When the select succeeds it returns those rows; when it
   * fails its data is null and the loop sees no rows. The delete of the
   * orphaned rows succeeds. The depot is whatever `Bootstrap` stores, with
   * clean trackers and nothing pending; the store loses the orphaned rows.
   */
  function Mount(local: Depot, rows: seq<DepotItem>, selectOk: bool, catalog: set<string>): (r: Session)
    ensures r.state.trackers == Clean && r.pending.None?
    ensures r.state.depot.Keys == (if selectOk then KnownIds(rows, catalog) else {})
    ensures r.remote.Keys == (if selectOk then KnownIds(rows, catalog) else RowsToMap(rows).Keys)
    ensures forall k | k in r.remote :: k in RowsToMap(rows) && r.remote[k] == RowsToMap(rows)[k]
  {
    var b := Bootstrap(local, true, if selectOk then Some(rows) else None, catalog);
    var deleted := set j | 0 <= j < |b.deleted| :: b.deleted[j];
    MountStore(rows, catalog, selectOk);
    KnownIdsExact(rows, catalog);
    Session(State(b.depot, Clean), None, RowsToMap(rows) - deleted)
  }

  /** A session mounted by a successful select starts with the invariant: the depot agrees with the store on every material. */
  lemma MountKeepsInv(local: Depot, rows: seq<DepotItem>, catalog: set<string>)
    ensures Inv(Mount(local, rows, true, catalog))
    ensures InSync(Mount(local, rows, true, catalog))
  {
    var s := Mount(local, rows, true, catalog);
    KnownAndOrphansSplitRows(rows, catalog);
    var orphans := Orphans(rows, catalog);
    forall k
      ensures StockOf(s.state.depot, k) == StockOf(s.remote, k)
    {
      RowsToMapHas(rows, k);
      KnownIdsHas(rows, catalog, k);
      if Mentions(rows, k) {
        LastExists(rows, k);
        var i :| IsLast(rows, i, k);
        RowsToMapLast(rows, k, i);
        if k !in catalog {
          assert k in orphans;
          var j :| 0 <= j < |orphans| && orphans[j] == k;
        } else {
          assert k !in orphans;
        }
      }
    }
  }

  /**
   * A failed select: the depot, local storage included, is replaced by an
   * empty one while the store keeps every row, and the trackers are clean.
   * So any material whose stored stock is not 0 is out of sync and the
   * invariant fails, with no unsaved change reported.
   */
  lemma MountFailedSelect(local: Depot, rows: seq<DepotItem>, catalog: set<string>)
    ensures var s := Mount(local, rows, false, catalog);
      && s == Session(State(map[], Clean), None, RowsToMap(rows))
      && !HasUnsavedChanges(s.state.trackers)
      && forall k, i | IsLast(rows, i, k) && rows[i].stock != 0 :: !InSync(s) && !Inv(s)
  {
    var s := Mount(local, rows, false, catalog);
    assert s == Session(State(map[], Clean), None, RowsToMap(rows));
    forall k, i | IsLast(rows, i, k) && rows[i].stock != 0
      ensures !InSync(s) && !Inv(s)
    {
      RowsToMapLast(rows, k, i);
      assert StockOf(s.state.depot, k) != StockOf(s.remote, k);
      assert k !in s.state.trackers.rawUpdate;
    }
  }

  // ---------------------------------------------------------------------------
  // Findings: the hook as written
  // ---------------------------------------------------------------------------

  /** The depot, or the store, holding material 30012 alone at `stock`. */
  function One(stock: int): Depot {
    map["30012" := Bare("30012", stock)]
  }

  /**
   * A new material edited to 5 and then 7 in one debounced batch: the
   * unsynced 5 becomes its snapshot, and the pending call carries the 7.
   */
  lemma NewMaterialSnapshotsUnsynced()
    ensures Apply(Source, Session(State(map[], Clean), None, map[]), Edit([Bare("30012", 5), Bare("30012", 7)], false, true))
      == Session(State(One(7), Trackers(One(7), One(5))), Some(One(7)), map[])
  {
    var a5, a7 := Bare("30012", 5), Bare("30012", 7);
    var f0 := Start(State(map[], Clean));
    assert f0 == Fold(map[], map[], map[], false);
    var f1 := Step(AsWritten, f0, a5);
    assert f1 == Fold(One(5), One(5), map[], true);
    var f2 := Step(AsWritten, f1, a7);
    assert f2 == Fold(One(7), One(7), One(5), true);
    assert [a5, a7][1..] == [a7] && [a7][1..] == [];
    assert FoldItems(AsWritten, f1, [a7]) == FoldItems(AsWritten, f2, []);
    assert FoldItems(AsWritten, f0, [a5, a7]) == f2;
  }

  /** Editing it back to 5 matches the snapshot: the key leaves `rawUpdate` and the call is re-armed with nothing. */
  lemma BackToSnapshotDropsPending()
    ensures Apply(Source, Session(State(One(7), Trackers(One(7), One(5))), Some(One(7)), map[]), Edit([Bare("30012", 5)], false, true))
      == Session(State(One(5), Trackers(map[], One(5))), Some(map[]), map[])
  {
    var a5 := Bare("30012", 5);
    var g0 := Start(State(One(7), Trackers(One(7), One(5))));
    assert g0 == Fold(One(7), One(7), One(5), false);
    var g1 := Step(AsWritten, g0, a5);
    assert g1 == Fold(One(5), map[], One(5), true);
    assert [a5][1..] == [];
    assert FoldItems(AsWritten, g0, [a5]) == g1;
  }

  /** The re-armed call has an empty list, so it returns early and writes nothing. */
  lemma FireEmptyWritesNothing(st: State, remote: Depot)
    ensures Apply(Source, Session(st, Some(map[]), remote), Fire(true)) == Session(st, None, remote)
  {
  }

  /**
   * A material the depot did not have, edited to 5 and then 7 in one
   * debounced batch, has its unsynced 5 recorded as its original value.
   * Editing it back to 5 then drops it from `rawUpdate`; the debounced call
   * is re-armed with an empty list and never writes. The depot keeps 5, the
   * store never receives the material, and no unsaved change is reported.
   */
  lemma SourceLosesNewMaterial()
    ensures var s0 := Session(State(map[], Clean), None, map[]);
      var s1 := Apply(Source, s0, Edit([Bare("30012", 5), Bare("30012", 7)], false, true));
      var s2 := Apply(Source, s1, Edit([Bare("30012", 5)], false, true));
      var s3 := Apply(Source, s2, Fire(true));
      && Inv(s0)
      && s1.state.trackers.ogValues == One(5)
      && s3.state.depot == One(5)
      && s3.remote == map[]
      && !HasUnsavedChanges(s3.state.trackers)
      && !InSync(s3)
  {
    NewMaterialSnapshotsUnsynced();
    BackToSnapshotDropsPending();
    FireEmptyWritesNothing(State(One(5), Trackers(map[], One(5))), map[]);
    assert StockOf(One(5), "30012") != StockOf(map[], "30012");
  }

  /** Upserting the one row replaces the stored one. */
  lemma UpsertOne(stored: int, written: int)
    ensures |One(written)| == 1
    ensures Upsert(One(stored), One(written)) == One(written)
  {
    assert One(stored) + One(written) == One(written);
  }

  /** Resetting the one-material depot zeroes its row. */
  lemma ResetOne(stock: int)
    ensures ResetDepot(One(stock)) == One(0)
  {
  }

  /** A depot and store that agree on material 30012 alone, with clean trackers, satisfy the invariant. */
  lemma SyncedOneInv(stock: int)
    ensures Inv(Session(State(One(stock), Clean), None, One(stock)))
  {
  }

  /** From a synced stock of 5, a debounced edit to 8 arms the pending call with that edit. */
  lemma ArmStaleEdit()
    ensures Apply(Source, Session(State(One(5), Clean), None, One(5)), Edit([Bare("30012", 8)], false, true))
      == Session(State(One(8), Trackers(One(8), One(5))), Some(One(8)), One(5))
  {
    var a8 := Bare("30012", 8);
    var f0 := Start(State(One(5), Clean));
    assert f0 == Fold(One(5), map[], map[], false);
    var f1 := Step(AsWritten, f0, a8);
    assert f1 == Fold(One(8), One(8), One(5), true);
    assert [a8][1..] == [];
    assert FoldItems(AsWritten, f0, [a8]) == f1;
  }

  /** A successful reset over the armed edit zeroes both sides and leaves the call armed. */
  lemma ResetLeavesStaleEdit()
    ensures Apply(Source, Session(State(One(8), Trackers(One(8), One(5))), Some(One(8)), One(5)), ResetAll(true))
      == Session(State(One(0), Clean), Some(One(8)), One(0))
  {
    var st := State(One(8), Trackers(One(8), One(5)));
    ResetOne(8);
    UpsertOne(5, 0);
    assert Reset(st) == PutResult(State(One(0), st.trackers), SyncNow(One(0)));
  }

  /** The armed call fires over clean trackers: the store takes the stale 8 whatever it held, and the trackers stay clean. */
  lemma FireStaleEdit(depot: Depot, stock: int)
    ensures Apply(Source, Session(State(depot, Clean), Some(One(8)), One(stock)), Fire(true))
      == Session(State(depot, Clean), None, One(8))
  {
    UpsertOne(stock, 8);
  }

  /** An immediate edit to 9 over the armed edit writes 9 at once and leaves the call armed. */
  lemma ImmediateLeavesStaleEdit()
    ensures Apply(Source, Session(State(One(8), Trackers(One(8), One(5))), Some(One(8)), One(5)), Edit([Bare("30012", 9)], true, true))
      == Session(State(One(9), Clean), Some(One(8)), One(9))
  {
    var a9 := Bare("30012", 9);
    var f0 := Start(State(One(8), Trackers(One(8), One(5))));
    assert f0 == Fold(One(8), One(8), One(5), false);
    var f1 := Step(AsWritten, f0, a9);
    assert f1 == Fold(One(9), One(9), One(5), true);
    assert [a9][1..] == [];
    assert FoldItems(AsWritten, f0, [a9]) == f1;
    UpsertOne(5, 9);
  }

  /**
   * An edit arms the debounced call with stock 8; a reset then writes stock 0
   * and clears the trackers but leaves that call armed. When it fires it
   * writes the stale 8: the store holds 8, the depot 0, and no unsaved change
   * is reported.
   */
  lemma SourceResetRevivedByStaleDebounce()
    ensures var s0 := Session(State(One(5), Clean), None, One(5));
      var s1 := Apply(Source, s0, Edit([Bare("30012", 8)], false, true));
      var s2 := Apply(Source, s1, ResetAll(true));
      var s3 := Apply(Source, s2, Fire(true));
      && Inv(s0)
      && StockOf(s3.state.depot, "30012") == 0
      && StockOf(s3.remote, "30012") == 8
      && !HasUnsavedChanges(s3.state.trackers)
  {
    SyncedOneInv(5);
    ArmStaleEdit();
    ResetLeavesStaleEdit();
    FireStaleEdit(One(0), 0);
  }

  /** The same stale write after an immediate `put` instead of a reset. */
  lemma SourceImmediateRevivedByStaleDebounce()
    ensures var s0 := Session(State(One(5), Clean), None, One(5));
      var s1 := Apply(Source, s0, Edit([Bare("30012", 8)], false, true));
      var s2 := Apply(Source, s1, Edit([Bare("30012", 9)], true, true));
      var s3 := Apply(Source, s2, Fire(true));
      && Inv(s0)
      && StockOf(s3.state.depot, "30012") == 9
      && StockOf(s3.remote, "30012") == 8
      && !HasUnsavedChanges(s3.state.trackers)
  {
    SyncedOneInv(5);
    ArmStaleEdit();
    ImmediateLeavesStaleEdit();
    FireStaleEdit(One(9), 9);
  }
}

=== FILE: skins.dfy ===
/**
 * The build-time skin table transform of `createSkinsJson`: the Chinese skin
 * table, in its own order, is filtered to obtainable operators and grouped by
 * character, and each skin becomes an entry named from the English table
 * when it has a name there.
 *
 * The JSON inputs are parameters and the output map is the returned value;
 * writing the file is not part of this model.
 */
module SkinTable {
  import opened Wrappers

  datatype DisplaySkin = DisplaySkin(skinName: Option<string>, sortId: int)

  datatype Skin = Skin(skinId: string, charId: string, avatarId: string, displaySkin: DisplaySkin)

  datatype Character = Character(profession: string, isNotObtainable: bool)

  /** One element of a character's list in `skins.json`. */
  datatype SkinEntry = SkinEntry(skinId: string, skinName: Option<string>, avatarId: string, sortId: int)

  /** `skinObj`: character id to that character's skins. */
  type SkinsJson = map<string, seq<SkinEntry>>

  /** Every skin's character is in the character table (`isOperator` reads it unguarded). */
  predicate AllKnown(chars: map<string, Character>, skins: seq<Skin>) {
    forall i | 0 <= i < |skins| :: skins[i].charId in chars
  }

  /** `isOperator`: tokens, traps and unobtainable characters are not operators; every other character is. */
  function IsOperator(chars: map<string, Character>, charId: string): (r: bool)
    requires charId in chars
    ensures chars[charId].profession == "TOKEN" ==> !r
    ensures chars[charId].profession == "TRAP" ==> !r
    ensures chars[charId].isNotObtainable ==> !r
    ensures chars[charId].profession !in {"TOKEN", "TRAP"} && !chars[charId].isNotObtainable ==> r
  {
    var c := chars[charId];
    c.profession != "TOKEN" && c.profession != "TRAP" && !c.isNotObtainable
  }

  /**
   * `(enSkin && enSkin.displaySkin.skinName) ?? skin.displaySkin.skinName`:
   * the English name when the English table has the skin with a name (an
   * empty name included, since `??` only skips a missing one), the Chinese
   * name otherwise; so a skin is unnamed only when neither table names it.
   */
  function SkinName(en: map<string, Skin>, skin: Skin): (r: Option<string>)
    ensures skin.skinId in en && en[skin.skinId].displaySkin.skinName.Some? ==> r == en[skin.skinId].displaySkin.skinName
    ensures skin.skinId !in en || en[skin.skinId].displaySkin.skinName.None? ==> r == skin.displaySkin.skinName
    ensures r.None? <==>
      (skin.skinId !in en || en[skin.skinId].displaySkin.skinName.None?) && skin.displaySkin.skinName.None?
  {
    var enName := if skin.skinId in en then en[skin.skinId].displaySkin.skinName else None;
    if enName.Some? then enName else skin.displaySkin.skinName
  }

  /** The object pushed for one Chinese skin: its ids and sort id, and the name `SkinName` chooses. */
  function Entry(en: map<string, Skin>, skin: Skin): (r: SkinEntry)
    ensures r.skinId == skin.skinId && r.avatarId == skin.avatarId && r.sortId == skin.displaySkin.sortId
    ensures skin.skinId in en && en[skin.skinId].displaySkin.skinName.Some? ==> r.skinName == en[skin.skinId].displaySkin.skinName
    ensures skin.skinId !in en || en[skin.skinId].displaySkin.skinName.None? ==> r.skinName == skin.displaySkin.skinName
  {
    SkinEntry(skin.skinId, SkinName(en, skin), skin.avatarId, skin.displaySkin.sortId)
  }

  function Lookup(m: SkinsJson, charId: string): seq<SkinEntry> {
    if charId in m then m[charId] else []
  }

  /** One iteration: the current skin's entry is appended to its character's list when it is an operator. */
  function GroupStep(en: map<string, Skin>, chars: map<string, Character>, acc: SkinsJson, skin: Skin): SkinsJson
    requires skin.charId in chars
  {
    if IsOperator(chars, skin.charId)
    then acc[skin.charId := Lookup(acc, skin.charId) + [Entry(en, skin)]]
    else acc
  }

  /**
   * The `forEach` over the Chinese skins: `skinObj[charId] ??= []` then
   * `push`. It never removes a key; `GroupAppends` states what it adds.
   */
  function Group(en: map<string, Skin>, chars: map<string, Character>, acc: SkinsJson, skins: seq<Skin>): (r: SkinsJson)
    requires AllKnown(chars, skins)
    ensures acc.Keys <= r.Keys
    decreases |skins|
  {
    if |skins| == 0 then acc else Group(en, chars, GroupStep(en, chars, acc, skins[0]), skins[1..])
  }

  /**
   * `createSkinsJson` without the file write. The output has a list exactly
   * for the obtainable operators that have a skin; each list is that
   * character's kept skins in input order, so it is never empty; and it
   * holds exactly as many entries as there are kept skins.
   */
  function CreateSkins(cn: seq<Skin>, en: map<string, Skin>, chars: map<string, Character>): (r: SkinsJson)
    requires AllKnown(chars, cn)
    ensures forall c :: c in r <==> exists i | 0 <= i < |cn| :: cn[i].charId == c && IsOperator(chars, c)
    ensures forall c | c in r :: r[c] == EntriesFor(en, chars, cn, c) && |r[c]| > 0
    ensures TotalLen(r) == CountKept(chars, cn)
  {
    GroupFromEmpty(cn, en, chars);
    GroupCount(en, chars, map[], cn);
    Group(en, chars, map[], cn)
  }

  /** Reference definition: the entries of the kept skins of character `c`, in input order. */
  function EntriesFor(en: map<string, Skin>, chars: map<string, Character>, skins: seq<Skin>, c: string): seq<SkinEntry>
    requires AllKnown(chars, skins)
  {
    if |skins| == 0 then []
    else
      (if skins[0].charId == c && IsOperator(chars, c) then [Entry(en, skins[0])] else [])
      + EntriesFor(en, chars, skins[1..], c)
  }

  /** Reference definition: the number of skins kept. */
  function CountKept(chars: map<string, Character>, skins: seq<Skin>): nat
    requires AllKnown(chars, skins)
  {
    if |skins| == 0 then 0
    else (if IsOperator(chars, skins[0].charId) then 1 else 0) + CountKept(chars, skins[1..])
  }

  /** The number of entries over all characters. */
  ghost function TotalLen(m: SkinsJson): nat
    decreases |m|
  {
    if |m| == 0 then 0
    else
      var c :| c in m;
      |m[c]| + TotalLen(m - {c})
  }

  // ---------------------------------------------------------------------------
  // Lemmas
  // ---------------------------------------------------------------------------

  lemma GroupUnfold(en: map<string, Skin>, chars: map<string, Character>, acc: SkinsJson, skins: seq<Skin>)
    requires AllKnown(chars, skins) && |skins| > 0
    ensures Group(en, chars, acc, skins) == Group(en, chars, GroupStep(en, chars, acc, skins[0]), skins[1..])
    ensures EntriesFor(en, chars, skins, skins[0].charId) ==
      (if IsOperator(chars, skins[0].charId) then [Entry(en, skins[0])] else [])
      + EntriesFor(en, chars, skins[1..], skins[0].charId)
  {
  }

  /** The grouping loop appends each character's kept skins, in order, to what it already held. */
  lemma {:induction false} GroupAppends(en: map<string, Skin>, chars: map<string, Character>, acc: SkinsJson, skins: seq<Skin>, c: string)
    requires AllKnown(chars, skins)
    ensures Lookup(Group(en, chars, acc, skins), c) == Lookup(acc, c) + EntriesFor(en, chars, skins, c)
    decreases |skins|
  {
    if |skins| > 0 {
      var skin := skins[0];
      var acc' := GroupStep(en, chars, acc, skin);
      GroupUnfold(en, chars, acc, skins);
      GroupAppends(en, chars, acc', skins[1..], c);
      var tail := EntriesFor(en, chars, skins[1..], c);
      if skin.charId == c && IsOperator(chars, c) {
        assert EntriesFor(en, chars, skins, c) == [Entry(en, skin)] + tail;
        assert Lookup(acc', c) == Lookup(acc, c) + [Entry(en, skin)];
      } else {
        assert EntriesFor(en, chars, skins, c) == tail;
        assert Lookup(acc', c) == Lookup(acc, c);
      }
    }
  }

  /** A character has a list after the loop exactly when it had one before or has some kept skin. */
  lemma {:induction false} GroupKeys(en: map<string, Skin>, chars: map<string, Character>, acc: SkinsJson, skins: seq<Skin>, c: string)
    requires AllKnown(chars, skins)
    ensures c in Group(en, chars, acc, skins) <==> c in acc || EntriesFor(en, chars, skins, c) != []
    decreases |skins|
  {
    if |skins| > 0 {
      var skin := skins[0];
      var acc' := GroupStep(en, chars, acc, skin);
      GroupUnfold(en, chars, acc, skins);
      GroupKeys(en, chars, acc', skins[1..], c);
      var tail := EntriesFor(en, chars, skins[1..], c);
      if skin.charId == c && IsOperator(chars, c) {
        assert EntriesFor(en, chars, skins, c) == [Entry(en, skin)] + tail;
        assert c in acc';
      } else {
        assert EntriesFor(en, chars, skins, c) == tail;
        assert c in acc' <==> c in acc;
      }
    }
  }

  /** A character has entries exactly when it is an operator with some skin in the table. */
  lemma {:induction false} EntriesForNonEmpty(en: map<string, Skin>, chars: map<string, Character>, skins: seq<Skin>, c: string)
    requires AllKnown(chars, skins)
    ensures EntriesFor(en, chars, skins, c) != [] <==>
      exists i | 0 <= i < |skins| :: skins[i].charId == c && IsOperator(chars, c)
    decreases |skins|
  {
    if |skins| > 0 {
      var rest := skins[1..];
      EntriesForNonEmpty(en, chars, rest, c);
      if exists i | 0 <= i < |rest| :: rest[i].charId == c && IsOperator(chars, c) {
        var i :| 0 <= i < |rest| && rest[i].charId == c && IsOperator(chars, c);
        assert skins[i + 1] == rest[i];
      }
      if exists i | 0 <= i < |skins| :: skins[i].charId == c && IsOperator(chars, c) {
        var i :| 0 <= i < |skins| && skins[i].charId == c && IsOperator(chars, c);
        if i > 0 {
          assert rest[i - 1] == skins[i];
        }
      }
    }
  }

  /** Every entry of a character is built from one of that character's kept skins; `i` is that skin's index. */
  lemma {:induction false} EntriesForFrom(en: map<string, Skin>, chars: map<string, Character>, skins: seq<Skin>, c: string, j: int)
    returns (i: int)
    requires AllKnown(chars, skins)
    requires 0 <= j < |EntriesFor(en, chars, skins, c)|
    ensures 0 <= i < |skins| && skins[i].charId == c && IsOperator(chars, c)
    ensures EntriesFor(en, chars, skins, c)[j] == Entry(en, skins[i])
    decreases |skins|
  {
    var rest := skins[1..];
    var tail := EntriesFor(en, chars, rest, c);
    if skins[0].charId == c && IsOperator(chars, c) {
      assert EntriesFor(en, chars, skins, c) == [Entry(en, skins[0])] + tail;
      if j == 0 {
        i := 0;
      } else {
        var i' := EntriesForFrom(en, chars, rest, c, j - 1);
        i := i' + 1;
        assert skins[i] == rest[i'];
      }
    } else {
      assert EntriesFor(en, chars, skins, c) == tail;
      var i' := EntriesForFrom(en, chars, rest, c, j);
      i := i' + 1;
      assert skins[i] == rest[i'];
    }
  }

  /** Grouping from an empty map: the keys are the operators with skins, each holding its reference list. */
  lemma GroupFromEmpty(cn: seq<Skin>, en: map<string, Skin>, chars: map<string, Character>)
    requires AllKnown(chars, cn)
    ensures forall c :: c in Group(en, chars, map[], cn) <==>
      exists i | 0 <= i < |cn| :: cn[i].charId == c && IsOperator(chars, c)
    ensures forall c | c in Group(en, chars, map[], cn) ::
      Group(en, chars, map[], cn)[c] == EntriesFor(en, chars, cn, c) && |Group(en, chars, map[], cn)[c]| > 0
  {
    forall c
      ensures c in Group(en, chars, map[], cn) <==> exists i | 0 <= i < |cn| :: cn[i].charId == c && IsOperator(chars, c)
      ensures c in Group(en, chars, map[], cn) ==>
        Group(en, chars, map[], cn)[c] == EntriesFor(en, chars, cn, c) && |Group(en, chars, map[], cn)[c]| > 0
    {
      GroupAppends(en, chars, map[], cn, c);
      GroupKeys(en, chars, map[], cn, c);
      EntriesForNonEmpty(en, chars, cn, c);
    }
  }

  /** The character `TotalLen` picks first. */
  lemma TotalLenPick(m: SkinsJson) returns (d: string)
    requires |m| > 0
    ensures d in m && TotalLen(m) == |m[d]| + TotalLen(m - {d})
  {
    d :| d in m && TotalLen(m) == |m[d]| + TotalLen(m - {d});
  }

  lemma RemoveShrinks(m: SkinsJson, d: string)
    requires d in m
    ensures |m - {d}| < |m|
  {
    assert (m - {d}).Keys == m.Keys - {d};
  }

  /** Removing one character takes away exactly its entries from the total, whichever was picked first. */
  lemma TotalLenRemove(m: SkinsJson, c: string)
    requires c in m
    ensures TotalLen(m) == |m[c]| + TotalLen(m - {c})
    decreases |m|
  {
    var d := TotalLenPick(m);
    if d != c {
      var md, mc := m - {d}, m - {c};
      var rest := md - {c};
      assert rest == mc - {d};
      RemoveShrinks(m, d);
      RemoveShrinks(m, c);
      TotalLenRemove(md, c);
      TotalLenRemove(mc, d);
      assert TotalLen(md) == |m[c]| + TotalLen(rest) by { assert md[c] == m[c]; }
      assert TotalLen(mc) == |m[d]| + TotalLen(rest) by { assert mc[d] == m[d]; }
    }
  }

  lemma TotalLenUpdate(m: SkinsJson, c: string, s: seq<SkinEntry>)
    ensures TotalLen(m[c := s]) == TotalLen(m) - |Lookup(m, c)| + |s|
  {
    TotalLenRemove(m[c := s], c);
    if c in m {
      TotalLenRemove(m, c);
      assert m[c := s] - {c} == m - {c};
    } else {
      assert m[c := s] - {c} == m;
    }
  }

  /** Each kept skin adds exactly one entry. */
  lemma {:induction false} GroupCount(en: map<string, Skin>, chars: map<string, Character>, acc: SkinsJson, skins: seq<Skin>)
    requires AllKnown(chars, skins)
    ensures TotalLen(Group(en, chars, acc, skins)) == TotalLen(acc) + CountKept(chars, skins)
    decreases |skins|
  {
    if |skins| > 0 {
      var skin := skins[0];
      if IsOperator(chars, skin.charId) {
        TotalLenUpdate(acc, skin.charId, Lookup(acc, skin.charId) + [Entry(en, skin)]);
      }
      GroupCount(en, chars, GroupStep(en, chars, acc, skin), skins[1..]);
    }
  }
}

=== FILE: wrappers.dfy ===
/** Optional values: `null`/`undefined` fields and absent JSON properties. */
module Wrappers {

  datatype Option<+T> = None | Some(value: T) {

    /** The value, or `default` when there is none (the `??` operator). */
    function GetOr(default: T): T {
      match this
      case Some(v) => v
      case None => default
    }
  }
}
